=== FILE: README.md ===
# hAIry-botter core, modelled in Dafny

hAIry-botter is a chat-bot backend around Google's Gemini models. One turn of
the bot server goes through these steps:

- take a session id and a message;
- read that session's stored history;
- create a chat with the persona as system instruction;
- advertise either the tools of the configured MCP servers or Google search;
- optionally prepend knowledge-base context found by a vector store;
- send the message and run the function-call loop against the MCP servers;
- save the chat's history, compacting it into one summary entry once it reaches a threshold.

Around that turn sit four smaller pieces:

- the server's startup configuration;
- the HTTP endpoint that resolves the session id;
- the Telegram adapter, with its allow-list and photo handling;
- an example MCP tool.

The project models these parts as pure functions over immutable data:

| file | module | what it models |
|---|---|---|
| `wrappers.dfy`, `errors.dfy` | `Wrappers`, `Errors` | `Option`/`Result` and the error values the core produces |
| `text.dfy` | `Text` | `strings.Join`, `strings.Split` with a one-character separator, `strings.TrimSpace` |
| `decimal.dfy` | `Decimal` | `%d` formatting and `strconv.ParseInt(s, 10, 32)` |
| `genai.dfy` | `Genai` | the Gemini SDK values the core touches (contents, parts, function calls and responses, chat configuration) |
| `history.dfy` | `History` | the per-session history store: `Read`, `Save`, `summarize`, `contentToString` |
| `rag.dfy` | `Rag` | the knowledge retriever: `New`, `loadContent`, `Query` |
| `registry.dfy` | `Registry` | the MCP tool registration loop of the logic's `New` |
| `toolloop.dfy` | `ToolLoop` | `resolveFunctions`, the function-call loop |
| `orchestrator.dfy` | `Orchestrator` | the logic's `New` and `HandleMessage` |
| `serverbot.dfy` | `ServerBot` | `logLevelEnv` and the configuration decisions of the bot server's `main` |
| `telegram.dfy` | `Telegram` | `biggestImage`, the allow-list, the caption and session id choice, `USERNAME_LIMITS` |
| `httpserver.dfy` | `HttpServer` | session resolution and the response of `postMessage` |
| `mcpexample.dfy` | `McpExample` | `handleSomeRandomFunction` of the example MCP server |

Remote collaborators become parameters:

- the chat SDK: a creation error and a scripted sequence of replies;
- MCP tool calls, the summarizer, the embedding store and its ranked query;
- starting a transport, the Telegram download and the AI service.

The file system becomes a map from session id to entries. A directory walk
becomes the sequence of callbacks `fs.WalkDir` makes. `HandleMessage` returns
the list of remote interactions it performed, in order, so that properties
about ordering can be stated: save last, query before send, session id on
every tool call.

Some behaviours of the code that the model keeps as written:

- The MCP transport for every element of `MCP_SERVERS` is built from the
  whole variable, not from the trimmed element, so the model gives each
  client the unsplit value (`ServerBot.McpEndpoints`,
  `ServerBot.TwoServersShareOneUrl`).
- `HandleMessage` takes only a message string. No image part reaches the
  chat, so the model has no attachment part.
- What is saved is the chat's own history after the turn. The model takes
  it from an oracle (`Env.transcript`), so it makes no claim that the
  knowledge-base context is kept out of it.

## Model

| member | source | states |
|---|---|---|
| Text.Join | internal/ai/gemini/logic.go:197 | `strings.Join`: no elements give the empty string and a single element is returned as is (`JoinAppend`, `SplitThenJoin` and `JoinThenSplit` relate longer lists) |
| Text.Split | cmd/server-bot/main.go:79 | `strings.Split` with a one-character separator: a string without the separator is one piece, itself; otherwise there are at least two pieces and the first is everything before the first separator |
| Text.SplitShape | cmd/server-bot/main.go:79 | `strings.Split` yields one more piece than there are separators, and no piece contains the separator |
| Text.SplitThenJoin | cmd/server-bot/main.go:79 | joining the pieces of a split with the separator gives back the original string |
| Text.JoinThenSplit | cmd/server-bot/main.go:79 | splitting a join of separator-free pieces gives back the pieces |
| Text.TrimSpace | cmd/client-telegram/main.go:36 | the result is the infix of the input left after removing white space (Go's `unicode.IsSpace`) at both ends; it neither starts nor ends with white space |
| Text.TrimSpaceIdempotent | cmd/client-telegram/main.go:36 | trimming an already trimmed string changes nothing |
| Decimal.ParseInt32 | cmd/server-bot/main.go:66 | base-10 parsing with 32-bit size accepts exactly the strings `ParseDecimal` accepts whose value lies in [-2^31, 2^31-1], with that value |
| Decimal.FormatThenParse | cmd/client-telegram/main.go:130 | parsing what `%d` prints gives back the number |
| Decimal.FormatInjective | cmd/client-telegram/main.go:130 | distinct numbers print as distinct `%d` strings |
| Decimal.FormatThenParseInt32 | cmd/server-bot/main.go:66 | every 32-bit value written in decimal is accepted as that value |
| Decimal.Format | internal/rag/rag.go:81 | `%d` printing: a leading minus exactly for negative numbers, then at least one decimal digit with no leading zero |
| Decimal.ParseDecimal | cmd/server-bot/main.go:66 | the syntax `strconv.ParseInt` accepts in base 10: an all-digit string reads as its decimal value; a sign followed by digits reads as the signed value of the digits; the empty string, a lone sign, and a string with a non-digit after the optional sign are rejected |
| History.Read | internal/history/history.go:45-61 | a session without a record reads as the empty history; otherwise its stored entries |
| History.ContentToString | internal/history/history.go:118-127 | the nested loops produce the flattened history: one line `Role: <role>, Text:<text>` per part, entries in order |
| History.AppendEntry | internal/history/history.go:121-123 | the inner loop appends one line per part of an entry, in part order |
| History.FlattenAppend | internal/history/history.go:118-127 | the summary text of a concatenated history is the concatenation of the summary texts |
| History.PartlessEntryIsInvisible | internal/history/history.go:120-124 | an entry without parts adds no line, wherever it sits |
| History.SinglePartLine | internal/history/history.go:122 | a one-part entry contributes exactly the line `Role: <role>, Text:<text>` and a line break |
| History.Summarize | internal/history/history.go:90-116 | checks the threshold, the client and the model name in that order, each with its own error; wraps a summarizer failure; on success yields one `model` entry `Summarized history:\n\n<answer>` built from the summarizer's answer to the fixed system prompt and the template plus the flattened history |
| History.Save | internal/history/history.go:64-88 | below the threshold (or with 0) stores the history verbatim; at or above it stores one `model` summary entry; fails exactly when compaction's summary fails, storing nothing; writes only this session's record |
| History.ReadAfterSave | internal/history/history.go:79-87 | round trip: a history that is not compacted reads back unchanged after saving |
| History.ReadAfterCompaction | internal/history/history.go:67-78 | after a compacting save the session reads back as the single summary entry built from the summarizer's answer |
| History.CompactionFailure | internal/history/history.go:67-73 | a compacting save fails exactly when the client or model name is missing or the summarizer call fails |
| History.SaveIsolation | internal/history/history.go:87 | saving one session never changes what another session reads |
| Rag.Walk | internal/rag/rag.go:55-87 | documents get consecutive decimal ids from the start id; the id counter runs at most one ahead of the documents, and exactly level with them when the walk ends without an error |
| Rag.WalkCountsFailedEmbedding | internal/rag/rag.go:77-85 | the id counter runs one ahead of the documents exactly when the walk stopped at a file that was read but failed to embed, because `id` is incremented before the embedding error is returned |
| Rag.LoadContent | internal/rag/rag.go:47-94 | ids start at "1"; after a clean walk `embeddedDocs` equals the number of documents |
| Rag.New | internal/rag/rag.go:26-45 | a collection creation error fails construction; a successful construction has `embeddedDocs` equal to the number of indexed documents |
| Rag.WalkStopsAtFirstBad | internal/rag/rag.go:56-86 | the walk ends with the error of its first bad visit: a walk error wrapped with its path, the open or read error of a file, or the embedding error of a document |
| Rag.NewFailsAtFirstBad | internal/rag/rag.go:44-86 | construction from an existing collection fails with the error of the first visit that cannot be walked, opened, read or embedded |
| Rag.WalkErrorIffUnclean | internal/rag/rag.go:55-87 | the walk ends without an error exactly when no visit is a walk error and every file other than `.gitkeep` is read and embedded |
| Rag.NewSucceedsIffClean | internal/rag/rag.go:26-45 | construction from an existing collection succeeds exactly when the walk is clean |
| Rag.CleanWalkIndexesCorpus | internal/rag/rag.go:55-87 | a walk without errors indexes every file that is not a directory or `.gitkeep`, in walk order, under consecutive ids |
| Rag.CleanLoadCountsFiles | internal/rag/rag.go:54-89 | after a clean load, `embeddedDocs` is the number of such files and document "k" holds the k-th of them |
| Rag.SkippedVisitIsInvisible | internal/rag/rag.go:59-61 | inserting a directory or a `.gitkeep` file anywhere in the walk changes nothing |
| Rag.Query | internal/rag/rag.go:96-121 | an empty corpus answers with no documents without consulting the collection; otherwise the collection is asked with the limit clamped to `embeddedDocs` (`Min`), and its answer or error is passed through |
| Rag.QueryBoundedByCorpus | internal/rag/rag.go:105-108 | for a collection that honours its limit, a query never returns more documents than were embedded, whatever limit is asked |
| Rag.EmptyCorpusIgnoresCollection | internal/rag/rag.go:99-103 | with no embedded documents any two collections give the same empty answer |
| Registry.Declarations | internal/ai/gemini/logic.go:94-109 | at most one declaration per listed tool |
| Registry.DeclarationsAppend | internal/ai/gemini/logic.go:94-109 | declarations follow listing order: those of a concatenation are those of its parts, in order |
| Registry.UnconvertedToolIsSkipped | internal/ai/gemini/logic.go:96-102 | inserting a tool whose schema does not convert anywhere in the listing leaves the declarations unchanged |
| Registry.DeclarationsAreConvertedTools | internal/ai/gemini/logic.go:94-109 | a declaration is advertised exactly when some listed tool with a convertible schema has that name, description and schema |
| Registry.AddTools | internal/ai/gemini/logic.go:94-113 | one client's convertible tools are appended as declarations in listing order, and each name they offer now maps to this client; other names keep their owner |
| Registry.BuildFailsIffBroken | internal/ai/gemini/logic.go:61-115 | construction fails exactly when some client's handshake fails, or some client advertising tools fails to list them |
| Registry.Build | internal/ai/gemini/logic.go:61-115 | every registered name maps to the index of one of the given clients |
| Registry.BuildFailsAtFirstBroken | internal/ai/gemini/logic.go:72-89 | clients are registered in order and the first failure returns, so construction fails with the error of the first broken client: the wrapped handshake error, or the listing error |
| Registry.BuildOwnerDomain | internal/ai/gemini/logic.go:112 | a name is registered exactly when some client that lists its tools offers it with a convertible schema |
| Registry.BuildOwnerIsLast | internal/ai/gemini/logic.go:61-113 | a registered name maps to a client that offers it, and no later client offers it |
| Registry.BuildOwners | internal/ai/gemini/logic.go:39-40 | last writer wins: the name-to-client map holds exactly the offered names, each mapped to the last client offering it |
| Registry.BuildDeclarations | internal/ai/gemini/logic.go:105-109 | the advertised declarations are exactly the convertible tools of every listing client, in client then listing order |
| ToolLoop.NonTextIsDropped | internal/ai/gemini/logic.go:254-259 | a non-text tool result item contributes nothing to the output, wherever it sits |
| ToolLoop.TwoTextsJoinWithSpace | internal/ai/gemini/logic.go:261 | text items are joined with exactly one space |
| ToolLoop.Output | internal/ai/gemini/logic.go:254-261 | a result without text items gives an empty output; a single text item is the output unchanged |
| ToolLoop.OutputSplitsBack | internal/ai/gemini/logic.go:254-261 | when no text item contains a space, splitting the output at spaces gives back the text items in order |
| ToolLoop.DispatchCalls | internal/ai/gemini/logic.go:232-274 | every tool call made goes to the client registered for the name and carries the session id; there are no more responses than calls made and no more calls made than requested |
| ToolLoop.DispatchCallsEveryRegisteredTool | internal/ai/gemini/logic.go:232-252 | the tool calls made are exactly one `CallTool` to the owning client per call whose name is registered, in call order, including calls whose tool then fails |
| ToolLoop.AnsweredPositions | internal/ai/gemini/logic.go:232-274 | the positions of the calls that get a response are in range, increasing, and each names a registered call whose tool call succeeds |
| ToolLoop.DispatchAnswersInOrder | internal/ai/gemini/logic.go:232-274 | the resubmitted parts correspond, in order, to exactly the calls that are registered and whose tool call succeeds, each with that call's id, name and joined text output |
| ToolLoop.UnknownCallIsSkipped | internal/ai/gemini/logic.go:236-241 | a call to an unregistered name calls nothing and adds no part |
| ToolLoop.Resolve | internal/ai/gemini/logic.go:223-285 | a response without calls is returned at once with no effects; a finished loop ends on a response without calls and consumed at least one reply when the first response had calls |
| ToolLoop.LoopExitsAtFirstCallFreeResponse | internal/ai/gemini/logic.go:224-228 | the loop stops at the first reply without calls: every earlier reply was a success asking for calls |
| ToolLoop.LoopTerminates | internal/ai/gemini/logic.go:224-282 | if some reply is an error or asks for no calls, the loop ends before running out of replies |
| ToolLoop.ResubmitErrorAborts | internal/ai/gemini/logic.go:277-281 | an error on resubmission ends the loop with that error |
| ToolLoop.RoundSendsOnce | internal/ai/gemini/logic.go:232-281 | one round's effects hold exactly one resubmission, carrying that round's parts |
| ToolLoop.ResolveSendsOncePerRound | internal/ai/gemini/logic.go:224-282 | a loop that finishes after n rounds resubmitted exactly n times, and resubmission i carries the dispatch parts of the response handled in round i (the first response, then each answer in turn) |
| ToolLoop.ResubmitErrorInRound | internal/ai/gemini/logic.go:276-281 | when the resubmission of round k fails after k answers that all asked for calls, the loop ends with that error after k + 1 resubmissions |
| ToolLoop.FirstCallFreeAnswerEndsLoop | internal/ai/gemini/logic.go:224-228 | when answer k is the first without calls, the loop finishes with it after k + 1 rounds |
| ToolLoop.EmptyRoundStillResubmits | internal/ai/gemini/logic.go:276-281 | a response whose calls are all unknown still costs one resubmission with no parts |
| ToolLoop.NoKnownCallsNoDispatch | internal/ai/gemini/logic.go:236-241 | when no call's name is registered, nothing is called and no part is built |
| ToolLoop.LoopCallsCarrySession | internal/ai/gemini/logic.go:245-246 | every tool call of the loop carries the turn's session id and goes to the client registered for the call's name |
| Orchestrator.New | internal/ai/gemini/logic.go:49-130 | a persona read failure fails construction first; otherwise construction succeeds exactly when tool registration does, with its error otherwise, and keeps the persona, client count, registry, model name, retriever and search switch |
| Orchestrator.ToolsFor | internal/ai/gemini/logic.go:154-163 | function declarations exactly when there is an MCP client; Google search exactly when there is none and search is enabled; never both |
| Orchestrator.ChatConfigFor | internal/ai/gemini/logic.go:146-163 | the chat configuration has the persona as system instruction, a zero thinking budget, function tools exactly when there is an MCP client, and Google search exactly when there is none and search is enabled |
| Orchestrator.Retrieve | internal/ai/gemini/logic.go:173-186 | without a retriever there is no context; otherwise the retriever is asked with limit 3, its error is returned, and on success the contexts are the returned documents' contents in rank order |
| Orchestrator.Opening | internal/ai/gemini/logic.go:141-205 | a turn's effects up to the first message: the history read, the chat creation with the configured model, configuration and read history, the query when a retriever is configured, then the first message with the composed prompt |
| Orchestrator.ContextBlockShape | internal/ai/gemini/logic.go:192-198 | the context part is the header line, the documents one per line, and a final blank line |
| Orchestrator.PromptParts | internal/ai/gemini/logic.go:172-203 | the first message ends with `User request: <msg>` and has a context part in front exactly when documents were retrieved |
| Orchestrator.Contents | internal/ai/gemini/logic.go:183-186 | the retrieved documents' contents, one per document, in rank order |
| Orchestrator.HandleMessage | internal/ai/gemini/logic.go:134-221 | an empty session id fails with no effect; otherwise the turn first reads the history and creates the chat with the configured model, the persona, zero thinking budget, the advertised tools and the read history; a chat creation error ends the turn right there with that error; the store changes only on a turn without error, and such a turn ends by saving its session |
| Orchestrator.Converse | internal/ai/gemini/logic.go:205-220 | after the first message, every effect but a final save is a resubmission or a tool call with this session id to the registered client; a failed first send ends the turn with that error and no further effect; a failed resubmission ends it with that error after the loop's effects; a finished loop's final text is the reply, followed by the save; a turn that ends without saving has an error, an empty reply and the unchanged store; a turn without error holds the store its save produced |
| Orchestrator.FirstMessageIsPrompt | internal/ai/gemini/logic.go:171-205 | with a retriever the query (limit 3) comes right after chat creation; after successful retrieval the next effect sends the composed prompt; a failed retrieval ends the turn with its error and sends nothing |
| Orchestrator.CreateChatErrorEndsTurn | internal/ai/gemini/logic.go:166-169 | a chat creation error is returned unchanged with an empty reply and the unchanged store, after only the history read and the creation attempt: nothing is sent or saved |
| Orchestrator.FirstSendErrorEndsTurn | internal/ai/gemini/logic.go:205-208 | an error from the first `SendMessage` is returned unchanged with an empty reply and the unchanged store; the trace stops at the first message and holds no save |
| Orchestrator.LoopErrorEndsTurn | internal/ai/gemini/logic.go:211-215 | an error from the function-call loop is returned unchanged with an empty reply and the unchanged store; the trace is the opening and the loop's effects, with no save |
| Orchestrator.ReplyIsFirstCallFreeAnswer | internal/ai/gemini/logic.go:211-220 | the reply is the text of the first response without calls, returned even when saving then fails |
| Orchestrator.PlainPromptWithoutKnowledge | internal/ai/gemini/logic.go:172-203 | without a retriever or with an empty corpus the prompt is the user request alone |
| Orchestrator.SaveIsLastAndOnly | internal/ai/gemini/logic.go:134-221 | saving happens at most once and only as the last effect; a turn that does not save returns an error, an empty reply and the unchanged store |
| Orchestrator.ToolCallsCarrySession | internal/ai/gemini/logic.go:245-246 | every tool call of a turn carries the turn's session id and goes to the client registered for the name |
| Orchestrator.TurnTouchesOnlyItsSession | internal/ai/gemini/logic.go:218 | a turn never changes what another session reads |
| Orchestrator.PlainTurn | internal/ai/gemini/logic.go:134-221 | the plain scenario: a fresh session with no tools, no retriever and a reply without calls reads, creates, sends `User request: hello` and saves the chat's transcript, replying with the answer |
| ServerBot.Fold | cmd/server-bot/main.go:26 | lower-casing maps each character independently and keeps the length |
| ServerBot.LevelFromEnv | cmd/server-bot/main.go:24-38 | Debug exactly for "debug", Warn exactly for "warn" or "warning", Error exactly for "error", all case-insensitively; Info for every other name, the empty one included |
| ServerBot.LevelIgnoresCase | cmd/server-bot/main.go:26 | names that differ only in letter case select the same level |
| ServerBot.HistorySummary | cmd/server-bot/main.go:63-73 | unset means 20; otherwise the value must parse as a base-10 32-bit integer |
| ServerBot.McpEndpoints | cmd/server-bot/main.go:75-84 | unset means no clients; otherwise one client per comma-separated element, each built from the whole variable |
| ServerBot.SearchRequested | cmd/server-bot/main.go:108-116 | search is on exactly when `SEARCH_ENABLE` is "true" or "1": both spellings turn it on, and an unset variable or any other spelling leaves it off |
| ServerBot.Startup | cmd/server-bot/main.go:40-117 | a missing API key fails first; on success the level, address default, model (`GEMINI_MODEL`, else `gemini-flash-latest`), threshold, clients and search switch are as configured, and search never comes with MCP clients; search with clients fails exactly when key, threshold and transports are fine and search is requested |
| ServerBot.TwoServersShareOneUrl | cmd/server-bot/main.go:79-84 | `MCP_SERVERS=x,y` gives two clients that both use `x,y` as URL |
| ServerBot.HistorySummaryRoundTrip | cmd/server-bot/main.go:63-73 | any 32-bit threshold written in decimal is taken as is |
| ServerBot.HistoryConfig | cmd/server-bot/main.go:138-142 | the history store gets the parsed threshold, the Gemini client as summarizer and the chat model as summarizer model |
| ServerBot.StartupCompactionFailsOnlyRemotely | cmd/server-bot/main.go:138-142 | with the configuration the server builds, compaction fails exactly when the summarizer call fails |
| Telegram.BiggestIsUnique | cmd/client-telegram/main.go:149-162 | at most one position holds the first photo of maximal size |
| Telegram.BiggestImage | cmd/client-telegram/main.go:149-162 | the zero photo for no photos; otherwise the first photo of maximal file size, together with its position (no earlier photo is as big, none is bigger) |
| Telegram.IsAllowed | cmd/client-telegram/main.go:74-91 | an empty allow-list admits everyone; otherwise exactly the usernames equal to an entry |
| Telegram.ParseLimits | cmd/client-telegram/main.go:33-38 | an empty variable gives no limit; otherwise one trimmed entry per comma-separated element |
| Telegram.TrimmedPieceIsClean | cmd/client-telegram/main.go:36 | a trimmed piece of a split has no comma and no white space at either end |
| Telegram.LimitsAreClean | cmd/client-telegram/main.go:33-38 | every parsed entry has no comma and no white space at either end |
| Telegram.SessionIdInjective | cmd/client-telegram/main.go:130 | different chats never share a `tg-<chat id>` session |
| Telegram.SessionId | cmd/client-telegram/main.go:130 | the session id is `tg-` followed by text that reads back as the chat id |
| Telegram.MessageText | cmd/client-telegram/main.go:94-127 | the forwarded text is the caption when a photo is attached and the caption is not empty, else the message text; it is empty only when the message text is |
| Telegram.Handle | cmd/client-telegram/main.go:72-147 | a user outside the allow-list only gets the refusal; with photos the biggest is fetched first and a failed fetch ends the update; the forwarded text is the caption when a photo has one, else the message text, under the chat's session id; a reply is relayed, an error ends the update |
| HttpServer.ResolveSession | internal/server/message.go:35-47 | the `X-User-ID` header wins; else the `sessionID` cookie; else a fresh id that is also set as that cookie |
| HttpServer.CookieCarriesSession | internal/server/message.go:35-47 | a cookie set on the response always holds the id the turn runs under |
| HttpServer.EmptySessionOnlyFromEmptyCookie | internal/server/message.go:35-47 | with a non-empty generator, the turn's id is empty exactly when the header is absent and the cookie is empty |
| HttpServer.PostMessage | internal/server/message.go:17-66 | an unreadable image answers 500 first; a turn error answers 500 with its text and a line break; a reply answers 200 with `{"response": ...}`; the cookie is set as resolved |
| HttpServer.JsonOnlyOnSuccess | internal/server/message.go:53-65 | a JSON body appears exactly with status 200 |
| McpExample.Handle | cmd/server-mcp/main.go:42-58 | a missing or non-string session id fails first, then a missing `name` and a non-string `name` with two distinct errors, as `RequireString` reports them; an empty name gets the stranger greeting, any other name `Hello <name>, welcome here ...` |
| McpExample.GreetingIsTheOutput | cmd/server-mcp/main.go:57 | a greeting becomes, unchanged, the output the orchestrator returns to the model |
| McpExample.GreetingNamesTheCaller | cmd/server-mcp/main.go:57 | distinct non-empty names get distinct greetings |

## Left out

- Logging, `fmt.Println` diagnostics and process exit codes are not modelled: they do not affect results.
- File and JSON errors in `history.Read` and `Save` are left out. `History.Read` cannot fail, and a successful save always writes. The model has no file system.
- Reading and parsing `personality.json` is left out. `Orchestrator.New` takes the persona or the read error as input.
- The MCP protocol is left out: transports, the initialize handshake contents, the SSE server and the context plumbing of the `x-session-id` header. A client is its handshake and listing answers, and a tool call is an oracle.
- The conversion of an MCP input schema into a Gemini schema is an oracle. `Registry.Tool.schema` is `None` when conversion fails.
- Vector embedding and similarity ranking of the vector store are oracles (`Rag.Embedder`, `Rag.Collection`). So is persisting the store on shutdown.
- The `IsError` flag of MCP tool results is not modelled. The source ignores it too.
- ToolLoop.Resolve: the source loops until the model stops asking for calls. The model consumes a finite script of replies, and when the script runs out with calls pending it reports `Unresolved` (`ScriptEnded` for a turn). This outcome belongs to the model, not the program.
- Concurrency is not modelled: the HTTP server's goroutines, the graceful shutdown and simultaneous turns on one session.
- Image uploads are modelled only as readable or unreadable. The image bytes do not reach `HandleMessage` in the source either. The source reads the image with a single `Read` call, which may return fewer bytes than the header size; that is not modelled.
- The random session id generator is a parameter (`freshId`).
- Telegram: Markdown escaping of the reply, `GetFile`/download link construction and the bot's polling loop are left out. The download is one oracle.
- JSON encoding of the HTTP reply is left out: the body is `JsonReply(text)`, and `Encode`'s trailing newline is not modelled.
- The other adapters and clients are not part of this model: WhatsApp, Messenger, the CLI client, `pkg/httpBotter`, `cmd/bot-server` and the embedding package. The server's router (`internal/server/server.go`) is not part of this model either.
- ServerBot.Fold: agrees with Go's `strings.ToLower` only on characters whose lower-case form is ASCII. That is all the level comparison can observe: another character can never make a fold equal to an ASCII level name.
- ServerBot.Startup: creating the Gemini client, the embedder, the retriever and the logic, and starting the HTTP server, come after the decisions modelled and are left out. Creating and starting a transport are one oracle per URL. Since every client gets the same URL, the first failure decides.
- Rag.New: the source returns the partially built retriever together with a loading error. The caller discards it, so the model returns only the error.
- Telegram.Handle: only updates that carry a message with a sender are modelled. The source registers the handler for every update (`cmd/client-telegram/main.go` line 45) and dereferences `update.Message` and its sender without a nil check (lines 77, 85 and 94), so any other update makes it panic.
- ToolLoop.ToolCaller: a tool call is a pure function of client, session and call, so repeating a call in a later round gives the same result. In the source each call is a fresh request to the MCP server, which may answer differently. No stated property depends on the two answers being equal.
- Text.Split: only a one-character separator is modelled, which is all the core uses.
- History.SaveIsolation: the store is keyed by the session id string, while the source keys records by the file path `historyPath/sessionID`. Ids that name the same file, such as `u1` and `./u1`, or ids containing `/` or `..`, share or escape a record in the source but stay independent in the model. The isolation is proved for distinct id strings only.
- Orchestrator.TurnTouchesOnlyItsSession: holds for distinct id strings under the same map abstraction. Session ids arrive verbatim from the `X-User-ID` header or the cookie (`internal/server/message.go` lines 19 and 35-47), so two ids that name the same file share one history in the source.

=== FILE: decimal.dfy ===
/** Decimal integer text as Go's `fmt` prints it (`%d`) and `strconv.ParseInt`
    reads it with base 10. */
module Decimal {
  import opened Wrappers

  predicate IsDigit(c: char)
  {
    '0' <= c <= '9'
  }

  predicate AllDigits(s: string)
  {
    forall k :: 0 <= k < |s| ==> IsDigit(s[k])
  }

  function DigitChar(d: nat): (c: char)
    requires d < 10
    ensures IsDigit(c) && c as int - '0' as int == d
  {
    ('0' as int + d) as char
  }

  /** The digits of `n`, most significant first, without leading zeros. */
  function NatDigits(n: nat): (s: string)
    ensures |s| > 0 && AllDigits(s)
    ensures |s| > 1 ==> s[0] != '0'
    decreases n
  {
    if n < 10 then [DigitChar(n)] else NatDigits(n / 10) + [DigitChar(n % 10)]
  }

  /** `fmt.Sprintf("%d", n)`: a minus sign for negative values, then the digits. */
  function Format(n: int): (s: string)
    ensures |s| > 0 && (s[0] == '-' <==> n < 0)
    ensures var digits := if n < 0 then s[1..] else s;
      |digits| > 0 && AllDigits(digits) && (|digits| > 1 ==> digits[0] != '0')
  {
    if n < 0 then "-" + NatDigits(-n) else NatDigits(n)
  }

  /** The value of a string of decimal digits. */
  function DigitsValue(s: string): nat
    requires AllDigits(s)
  {
    if s == [] then 0 else DigitsValue(s[..|s| - 1]) * 10 + (s[|s| - 1] as int - '0' as int)
  }

  /** `strconv.ParseInt(s, 10, _)` before its range check: an optional `+` or
      `-`, then at least one decimal digit and nothing else. */
  function ParseDecimal(s: string): (r: Option<int>)
    ensures r.Some? ==> |s| > 0
    ensures r.Some? && r.value < 0 ==> s[0] == '-'
    ensures |s| > 0 && AllDigits(s) ==> r == Some(DigitsValue(s))
    ensures |s| > 0 && !AllDigits(s) && s[0] != '+' && s[0] != '-' ==> r.None?
    ensures |s| > 1 && (s[0] == '+' || s[0] == '-') && AllDigits(s[1..]) ==>
              r == Some(if s[0] == '-' then -(DigitsValue(s[1..]) as int) else DigitsValue(s[1..]))
    ensures |s| > 0 && (s[0] == '+' || s[0] == '-') && (|s| == 1 || !AllDigits(s[1..])) ==> r.None?
  {
    if |s| == 0 then None
    else
      var body := if s[0] == '+' || s[0] == '-' then s[1..] else s;
      if |body| == 0 || !AllDigits(body) then None
      else
        var magnitude: int := DigitsValue(body);
        if s[0] == '-' then Some(-magnitude) else Some(magnitude)
  }

  const Int32Min: int := -0x8000_0000
  const Int32Max: int := 0x7FFF_FFFF

  /** `strconv.ParseInt(s, 10, 32)`: a syntax error or a value outside the
      32-bit signed range is a failure. */
  function ParseInt32(s: string): (r: Option<int>)
    ensures r.Some? ==> Int32Min <= r.value <= Int32Max
    ensures r.Some? <==> ParseDecimal(s).Some? && Int32Min <= ParseDecimal(s).value <= Int32Max
    ensures r.Some? ==> r.value == ParseDecimal(s).value
  {
    match ParseDecimal(s)
    case Some(v) => if Int32Min <= v <= Int32Max then Some(v) else None
    case None => None
  }

  lemma {:induction false} NatDigitsValue(n: nat)
    ensures DigitsValue(NatDigits(n)) == n
    decreases n
  {
    if n >= 10 {
      var s := NatDigits(n);
      assert s[..|s| - 1] == NatDigits(n / 10);
      NatDigitsValue(n / 10);
    }
  }

  /** Reading back what `Format` printed gives the original number. */
  lemma FormatThenParse(n: int)
    ensures ParseDecimal(Format(n)) == Some(n)
  {
    var m: nat := if n < 0 then -n else n;
    var d := NatDigits(m);
    NatDigitsValue(m);
    assert IsDigit(d[0]);
    if n < 0 {
      var s := "-" + d;
      assert s == Format(n);
      assert s[0] == '-' && s[1..] == d;
    } else {
      assert d == Format(n);
      assert d[0] != '+' && d[0] != '-';
    }
  }

  /** Distinct numbers print differently. */
  lemma FormatInjective(a: int, b: int)
    ensures Format(a) == Format(b) ==> a == b
  {
    FormatThenParse(a);
    FormatThenParse(b);
  }

  /** A number in the 32-bit range survives `ParseInt32` after printing. */
  lemma FormatThenParseInt32(n: int)
    requires Int32Min <= n <= Int32Max
    ensures ParseInt32(Format(n)) == Some(n)
  {
    FormatThenParse(n);
  }
}

=== FILE: errors.dfy ===
/** The error values the modelled code creates or passes along. Go errors are
    opaque interface values; the ones the core constructs itself get their own
    constructor, and `Remote` stands for any error produced outside the model
    (the Gemini SDK, an MCP server, the filesystem, the vector store). */
module Errors {

  datatype Error =
    | Remote(message: string)
      /** `HandleMessage` with an empty session id. */
    | EmptySessionId
      /** `summarize` called with a zero threshold. */
    | SummaryDisabled
      /** `summarize` without a configured summarizer client. */
    | SummarizerMissing
      /** `summarize` without a summarizer model name. */
    | SummarizerModelMissing
      /** The summarizer call itself failed (wrapped as "failed to generate summary"). */
    | GenerateSummaryFailed(cause: Error)
      /** `Save` could not summarize (wrapped as "failed to summarize history"). */
    | SummarizeFailed(cause: Error)
      /** The corpus walk reported an error at `path`. */
    | WalkFailed(path: string, cause: Error)
      /** An MCP client failed its initialize handshake. */
    | McpInitFailed(cause: Error)
      /** The MCP tool handler found no string session id in its context. */
    | SessionIdMissing
      /** A required tool argument is absent. */
    | RequiredArgument(key: string)
      /** A required tool argument is present but not a string. */
    | ArgumentNotString(key: string)
}

=== FILE: genai.dfy ===
/** The slice of the Gemini SDK's data types the orchestrator touches: chat
    content, function calls and function responses. Each part carries exactly
    one kind of payload. */
module Genai {

  /** A JSON argument value: the tool handler only distinguishes strings. */
  datatype ArgValue = StringArg(s: string) | OtherArg

  datatype FunctionCall = FunctionCall(id: string, name: string, args: map<string, ArgValue>)

  /** A function response whose payload is the map `{"output": output}`. */
  datatype FunctionResponse = FunctionResponse(id: string, name: string, output: string)

  datatype Part =
    | TextPart(text: string)
    | InlineDataPart(mimeType: string, data: seq<bv8>)
    | CallPart(call: FunctionCall)
    | ResponsePart(response: FunctionResponse)

  /** The `Text` field of a part, which is empty for every non-text part. */
  function TextOf(p: Part): string
  {
    if p.TextPart? then p.text else ""
  }

  /** One role-tagged history entry (`genai.Content`). */
  datatype Content = Content(role: string, parts: seq<Part>)

  /** A model response, seen through `Text()` and `FunctionCalls()`. */
  datatype Response = Response(text: string, calls: seq<FunctionCall>)

  /** A function parameter schema, kept as its JSON text. */
  type Schema = string

  /** `genai.FunctionDeclaration`. */
  datatype Declaration = Declaration(name: string, description: string, parameters: Schema)

  /** The tools advertised in a chat configuration: none, one tool holding
      all function declarations, or the built-in Google search tool. */
  datatype ToolsConfig = NoTools | FunctionTools(declarations: seq<Declaration>) | GoogleSearch

  /** The chat configuration: system instruction, thinking budget and tools. */
  datatype ChatConfig = ChatConfig(systemInstruction: Content, thinkingBudget: int, tools: ToolsConfig)
}

=== FILE: history.dfy ===
/** The history store (internal/history/history.go): one record per session
    holding the ordered entry list, with compaction into a single summary entry
    once a configured length is reached. The file system becomes a map from
    session id to the stored entries. */
module History {
  import opened Wrappers
  import opened Errors
  import opened Genai

  /** The persisted records, one per session id. */
  type Store = map<string, seq<Content>>

  /** The summarizer client's `GenerateContent`: model name, system
      instruction and user text in, response text or an error out. */
  type Summarizer = (string, Content, string) -> Result<string, Error>

  /** `historySummary` is the compaction threshold (0 disables it);
      `summarizer` is `None` when no client is configured. */
  datatype Config = Config(historySummary: int, summarizer: Option<Summarizer>, summarizerModel: string)

  const SystemPrompt: Content := Content("user", [TextPart(
    "You are a summarization AI. Your task is to summarize the conversation history into a single message. "
    + "Extract all the most important information related to the client like name, phone number and other parameters. "
    + "It is possible that the model response contains user related information. "
    + "Only respond with the summarization and keep it short just keep the most important information.")])

  const UserTemplatePrefix: string := "The current history which should be summarized is:\n\n"

  const SummaryPrefix: string := "Summarized history:\n\n"

  /** `Read`: the stored entries, or the empty list when the session has no
      record yet (never an error). */
  function Read(store: Store, sessionId: string): (h: seq<Content>)
    ensures sessionId !in store ==> h == []
    ensures sessionId in store ==> h == store[sessionId]
  {
    if sessionId in store then store[sessionId] else []
  }

  /** The line `contentToString` writes for one part. */
  function Line(role: string, p: Part): string
  {
    "Role: " + role + ", Text:" + TextOf(p) + "\n"
  }

  /** The lines of one entry, one per part, in part order. */
  function EntryString(role: string, parts: seq<Part>): string
    decreases |parts|
  {
    if parts == [] then "" else EntryString(role, parts[..|parts| - 1]) + Line(role, parts[|parts| - 1])
  }

  /** `contentToString` as a definition: the entries' lines, entry after entry. */
  function Flatten(history: seq<Content>): string
    decreases |history|
  {
    if history == [] then ""
    else Flatten(history[..|history| - 1]) + EntryString(history[|history| - 1].role, history[|history| - 1].parts)
  }

  /** `contentToString` as the source computes it, with two nested loops. */
  method ContentToString(history: seq<Content>) returns (res: string)
    ensures res == Flatten(history)
  {
    res := "";
    var i := 0;
    while i < |history|
      invariant 0 <= i <= |history|
      invariant res == Flatten(history[..i])
    {
      res := AppendEntry(res, history[i].role, history[i].parts);
      assert history[..i + 1][..i] == history[..i];
      i := i + 1;
    }
    assert history[..i] == history;
  }

  /** The inner loop of `contentToString`: one line per part of one entry. */
  method AppendEntry(prefix: string, role: string, parts: seq<Part>) returns (res: string)
    ensures res == prefix + EntryString(role, parts)
  {
    res := prefix;
    var j := 0;
    while j < |parts|
      invariant 0 <= j <= |parts|
      invariant res == prefix + EntryString(role, parts[..j])
    {
      res := res + Line(role, parts[j]);
      assert parts[..j + 1][..j] == parts[..j];
      j := j + 1;
    }
    assert parts[..j] == parts;
  }

  /** Flattening distributes over concatenation of histories. */
  lemma {:induction false} FlattenAppend(a: seq<Content>, b: seq<Content>)
    ensures Flatten(a + b) == Flatten(a) + Flatten(b)
    decreases |b|
  {
    if b != [] {
      var b' := b[..|b| - 1];
      assert (a + b)[..|a + b| - 1] == a + b';
      FlattenAppend(a, b');
    } else {
      assert a + b == a;
    }
  }

  /** An entry without parts contributes nothing, wherever it sits. */
  lemma PartlessEntryIsInvisible(a: seq<Content>, role: string, b: seq<Content>)
    ensures Flatten(a + [Content(role, [])] + b) == Flatten(a + b)
  {
    FlattenAppend(a + [Content(role, [])], b);
    FlattenAppend(a, [Content(role, [])]);
    FlattenAppend(a, b);
    assert [Content(role, [])][..0] == [];
  }

  /** A one-entry, one-part history flattens to exactly one line. */
  lemma SinglePartLine(role: string, text: string)
    ensures Flatten([Content(role, [TextPart(text)])]) == "Role: " + role + ", Text:" + text + "\n"
  {
    var h := [Content(role, [TextPart(text)])];
    assert h[..0] == [];
    assert [TextPart(text)][..0] == [];
    assert EntryString(role, [TextPart(text)]) == EntryString(role, []) + Line(role, TextPart(text));
    assert Flatten(h) == Flatten([]) + EntryString(role, [TextPart(text)]);
  }

  /** The user text sent to the summarizer. */
  function SummaryRequest(history: seq<Content>): string
  {
    UserTemplatePrefix + Flatten(history)
  }

  /** `summarize`: the preconditions are checked in the order threshold,
      client, model name; on success the summary becomes one `model` entry with
      one text part. */
  function Summarize(cfg: Config, history: seq<Content>): (r: Result<Content, Error>)
    ensures cfg.historySummary == 0 ==> r == Failure(SummaryDisabled)
    ensures cfg.historySummary != 0 && cfg.summarizer.None? ==> r == Failure(SummarizerMissing)
    ensures (cfg.historySummary != 0 && cfg.summarizer.Some? && cfg.summarizerModel == "") ==>
      r == Failure(SummarizerModelMissing)
    ensures r.Success? ==>
      && cfg.summarizer.Some?
      && cfg.summarizer.value(cfg.summarizerModel, SystemPrompt, SummaryRequest(history)).Success?
      && r.value == Content("model", [TextPart(SummaryPrefix
           + cfg.summarizer.value(cfg.summarizerModel, SystemPrompt, SummaryRequest(history)).value)])
    ensures (&& cfg.historySummary != 0 && cfg.summarizer.Some? && cfg.summarizerModel != ""
             && cfg.summarizer.value(cfg.summarizerModel, SystemPrompt, SummaryRequest(history)).Failure?) ==>
      r == Failure(GenerateSummaryFailed(
             cfg.summarizer.value(cfg.summarizerModel, SystemPrompt, SummaryRequest(history)).error))
  {
    if cfg.historySummary == 0 then Failure(SummaryDisabled)
    else if cfg.summarizer.None? then Failure(SummarizerMissing)
    else if cfg.summarizerModel == "" then Failure(SummarizerModelMissing)
    else
      match cfg.summarizer.value(cfg.summarizerModel, SystemPrompt, SummaryRequest(history))
      case Failure(e) => Failure(GenerateSummaryFailed(e))
      case Success(text) => Success(Content("model", [TextPart(SummaryPrefix + text)]))
  }

  /** Whether `Save` compacts a history of this length. */
  predicate Compacts(cfg: Config, history: seq<Content>)
  {
    cfg.historySummary > 0 && |history| >= cfg.historySummary
  }

  /** `Save`: below the threshold the history is stored verbatim; at or above
      it, a single summary entry replaces it. A failed summary stores nothing.
      Only this session's record is written. */
  function Save(cfg: Config, store: Store, sessionId: string, history: seq<Content>): (r: Result<Store, Error>)
    ensures r.Success? ==> r.value.Keys == store.Keys + {sessionId}
    ensures r.Success? ==> forall other :: other in store && other != sessionId ==> r.value[other] == store[other]
    ensures !Compacts(cfg, history) ==> r == Success(store[sessionId := history])
    ensures Compacts(cfg, history) && r.Success? ==>
              |r.value[sessionId]| == 1 && r.value[sessionId][0].role == "model"
    ensures r.Failure? <==> Compacts(cfg, history) && Summarize(cfg, history).Failure?
    ensures r.Failure? ==> r.error == SummarizeFailed(Summarize(cfg, history).error)
  {
    if Compacts(cfg, history) then
      match Summarize(cfg, history)
      case Failure(e) => Failure(SummarizeFailed(e))
      case Success(summary) => Success(store[sessionId := [summary]])
    else
      Success(store[sessionId := history])
  }

  /** Round trip: a history shorter than the threshold (or with compaction
      disabled) is read back unchanged. */
  lemma ReadAfterSave(cfg: Config, store: Store, sessionId: string, history: seq<Content>)
    requires !Compacts(cfg, history)
    ensures Save(cfg, store, sessionId, history).Success?
    ensures Read(Save(cfg, store, sessionId, history).value, sessionId) == history
  {
  }

  /** After a compacting save, the session reads back as the single summary
      entry built from the summarizer's answer to the flattened history. */
  lemma ReadAfterCompaction(cfg: Config, store: Store, sessionId: string, history: seq<Content>, summary: string)
    requires Compacts(cfg, history)
    requires cfg.summarizer.Some? && cfg.summarizerModel != ""
    requires cfg.summarizer.value(cfg.summarizerModel, SystemPrompt, SummaryRequest(history)) == Success(summary)
    ensures Save(cfg, store, sessionId, history).Success?
    ensures Read(Save(cfg, store, sessionId, history).value, sessionId)
              == [Content("model", [TextPart(SummaryPrefix + summary)])]
  {
  }

  /** A compacting save fails exactly when no client or no model name is
      configured or the summarizer call fails. */
  lemma CompactionFailure(cfg: Config, store: Store, sessionId: string, history: seq<Content>)
    requires Compacts(cfg, history)
    ensures Save(cfg, store, sessionId, history).Failure? <==>
              || cfg.summarizer.None?
              || cfg.summarizerModel == ""
              || cfg.summarizer.value(cfg.summarizerModel, SystemPrompt, SummaryRequest(history)).Failure?
  {
  }

  /** Saving one session never changes what another session reads. */
  lemma SaveIsolation(cfg: Config, store: Store, sessionId: string, history: seq<Content>, other: string)
    requires other != sessionId
    requires Save(cfg, store, sessionId, history).Success?
    ensures Read(Save(cfg, store, sessionId, history).value, other) == Read(store, other)
  {
  }
}

=== FILE: httpserver.dfy ===
/** The message endpoint of the HTTP server (internal/server/message.go):
    the uploaded image is read first, the session id comes from the
    `X-User-ID` header, else the `sessionID` cookie, else a fresh id that is
    also set as that cookie; the turn's error or reply becomes the response.
    The id generator and the turn handler are parameters. */
module HttpServer {
  import opened Wrappers

  const SessionCookieName: string := "sessionID"

  /** The optional `image` form file: absent, readable, or failing to read. */
  datatype Upload = NoImage | ImageReadable | ImageUnreadable

  /** The parts of the request the handler reads. `cookie` is the value of
      the `sessionID` cookie when the request carries one. */
  datatype Request = Request(message: string, userHeader: string, cookie: Option<string>, image: Upload)

  datatype Body = PlainText(text: string) | JsonReply(response: string)

  /** Status, body and the `sessionID` cookie value set on the response, if any. */
  datatype Reply = Reply(status: int, body: Body, setCookie: Option<string>)

  /** The session id used for the turn and the cookie to set, if any. */
  function ResolveSession(userHeader: string, cookie: Option<string>, freshId: string): (r: (string, Option<string>))
    ensures userHeader != "" ==> r == (userHeader, None)
    ensures userHeader == "" && cookie.Some? ==> r == (cookie.value, None)
    ensures userHeader == "" && cookie.None? ==> r == (freshId, Some(freshId))
  {
    if userHeader != "" then (userHeader, None)
    else if cookie.Some? then (cookie.value, None)
    else (freshId, Some(freshId))
  }

  /** Whenever a cookie is set, it holds the id the turn runs under, and a
      non-empty fresh id is only ever used through that cookie. */
  lemma CookieCarriesSession(userHeader: string, cookie: Option<string>, freshId: string)
    ensures ResolveSession(userHeader, cookie, freshId).1.Some? ==>
              ResolveSession(userHeader, cookie, freshId).1.value == ResolveSession(userHeader, cookie, freshId).0
    ensures ResolveSession(userHeader, cookie, freshId).1.None? ==>
              ResolveSession(userHeader, cookie, freshId).0 == userHeader
              || (cookie.Some? && ResolveSession(userHeader, cookie, freshId).0 == cookie.value)
  {
  }

  /** The id is empty only when the header is absent and the request carries
      an empty `sessionID` cookie (or the generator returns an empty id). */
  lemma EmptySessionOnlyFromEmptyCookie(userHeader: string, cookie: Option<string>, freshId: string)
    requires freshId != ""
    ensures ResolveSession(userHeader, cookie, freshId).0 == "" <==> userHeader == "" && cookie == Some("")
  {
  }

  /** The turn handler: session id and message in, reply text or the error's
      text out. */
  type TurnHandler = (string, string) -> Result<string, string>

  /** `postMessage`. An unreadable image answers 500 before anything else; a
      turn error answers 500 with the error text followed by a line break; a
      reply answers 200 with the JSON object `{"response": reply}`. */
  function PostMessage(req: Request, freshId: string, handle: TurnHandler): (r: Reply)
    ensures req.image == ImageUnreadable ==> r == Reply(500, PlainText("failed to read image data\n"), None)
    ensures req.image != ImageUnreadable ==>
              var (sid, cookie) := ResolveSession(req.userHeader, req.cookie, freshId);
              && r.setCookie == cookie
              && (handle(sid, req.message).Failure? ==> r.status == 500 && r.body == PlainText(handle(sid, req.message).error + "\n"))
              && (handle(sid, req.message).Success? ==> r.status == 200 && r.body == JsonReply(handle(sid, req.message).value))
  {
    if req.image == ImageUnreadable then Reply(500, PlainText("failed to read image data\n"), None)
    else
      var (sid, cookie) := ResolveSession(req.userHeader, req.cookie, freshId);
      match handle(sid, req.message)
      case Failure(e) => Reply(500, PlainText(e + "\n"), cookie)
      case Success(res) => Reply(200, JsonReply(res), cookie)
  }

  /** A JSON body appears exactly on success. */
  lemma JsonOnlyOnSuccess(req: Request, freshId: string, handle: TurnHandler)
    ensures PostMessage(req, freshId, handle).body.JsonReply? <==> PostMessage(req, freshId, handle).status == 200
  {
  }
}

=== FILE: mcpexample.dfy ===
/** The example MCP tool handler (cmd/server-mcp/main.go,
    `handleSomeRandomFunction`): it needs a string session id in its context
    and a string `name` argument, and greets accordingly. */
module McpExample {
  import opened Wrappers
  import opened Errors
  import opened Genai
  import ToolLoop

  /** The `x-session-id` context value: absent, a string, or another type. */
  datatype ContextValue = NoValue | StringValue(s: string) | OtherValue

  const StrangerGreeting: string := "Hello mysterious stranger! Randomly"
  const GreetingSuffix: string := ", welcome here I will do something maybe!"

  /** The greeting's text content, or the error; the session id is checked
      before the argument. */
  function Handle(session: ContextValue, args: map<string, ArgValue>): (r: Result<string, Error>)
    ensures !session.StringValue? ==> r == Failure(SessionIdMissing)
    ensures session.StringValue? && "name" !in args ==> r == Failure(RequiredArgument("name"))
    ensures session.StringValue? && "name" in args && !args["name"].StringArg? ==>
              r == Failure(ArgumentNotString("name"))
    ensures r.Success? ==> session.StringValue? && "name" in args && args["name"].StringArg?
    ensures r.Success? && args["name"].s == "" ==> r.value == StrangerGreeting
    ensures r.Success? && args["name"].s != "" ==>
              && |r.value| == 6 + |args["name"].s| + |GreetingSuffix|
              && r.value[..6] == "Hello "
              && r.value[6..6 + |args["name"].s|] == args["name"].s
              && r.value[6 + |args["name"].s|..] == GreetingSuffix
  {
    if !session.StringValue? then Failure(SessionIdMissing)
    else if "name" !in args then Failure(RequiredArgument("name"))
    else if !args["name"].StringArg? then Failure(ArgumentNotString("name"))
    else
      var name := args["name"].s;
      if name == "" then Success(StrangerGreeting)
      else Success("Hello " + name + GreetingSuffix)
  }

  /** Seen by the orchestrator, a successful greeting is a one-item text
      result whose output is the greeting itself. */
  lemma GreetingIsTheOutput(session: ContextValue, args: map<string, ArgValue>)
    requires Handle(session, args).Success?
    ensures ToolLoop.Output([ToolLoop.TextContent(Handle(session, args).value)]) == Handle(session, args).value
  {
    var v := Handle(session, args).value;
    var c := [ToolLoop.TextContent(v)];
    assert c[1..] == [];
    assert ToolLoop.Texts(c) == [v];
  }

  /** Distinct non-empty names get distinct greetings. */
  lemma GreetingNamesTheCaller(session: ContextValue, a: string, b: string)
    requires session.StringValue? && a != "" && b != ""
    requires Handle(session, map["name" := StringArg(a)]) == Handle(session, map["name" := StringArg(b)])
    ensures a == b
  {
    var ra := "Hello " + a + GreetingSuffix;
    var rb := "Hello " + b + GreetingSuffix;
    assert ra[6..|ra| - |GreetingSuffix|] == a;
    assert rb[6..|rb| - |GreetingSuffix|] == b;
  }
}

=== FILE: orchestrator.dfy ===
/** The turn orchestrator of internal/ai/gemini/logic.go: `New` assembles the
    logic from the persona and the MCP clients, and `HandleMessage` runs one
    turn: validate the session id, read the history, create the chat with the
    right tools, add knowledge-base context, send, resolve function calls and
    save the chat's history. Every remote step is an oracle in `Env`, and the
    turn's remote interactions are recorded, in order, as a trace. */
module Orchestrator {
  import opened Wrappers
  import opened Errors
  import opened Genai
  import Text
  import History
  import Rag
  import Registry
  import opened ToolLoop

  /** The state `New` builds: persona, model name, number of MCP clients,
      tool registry, optional retriever and the search switch. */
  datatype Logic = Logic(
    persona: Content,
    model: string,
    clientCount: nat,
    registry: Registry.Registry,
    rag: Option<Rag.Retriever>,
    searchEnable: bool)

  /** `New`: the persona file is read first; then the registry is built from
      the clients. Either failure fails construction. */
  function New(persona: Result<Content, Error>, model: string, clients: seq<Registry.McpClient>,
               rag: Option<Rag.Retriever>, searchEnable: bool): (r: Result<Logic, Error>)
    ensures persona.Failure? ==> r == Failure(persona.error)
    ensures persona.Success? ==> (r.Success? <==> Registry.Build(clients).Success?)
    ensures persona.Success? && r.Failure? ==> r.error == Registry.Build(clients).error
    ensures r.Success? ==>
              && r.value.persona == persona.value
              && r.value.clientCount == |clients|
              && r.value.registry == Registry.Build(clients).value
              && r.value.model == model
              && r.value.rag == rag
              && r.value.searchEnable == searchEnable
  {
    if persona.Failure? then Failure(persona.error)
    else
      match Registry.Build(clients)
      case Failure(e) => Failure(e)
      case Success(reg) => Success(Logic(persona.value, model, |clients|, reg, rag, searchEnable))
  }

  /** The tools advertised to the model: the function declarations whenever
      there is an MCP client, otherwise Google search if enabled, otherwise
      nothing. Declarations and search never appear together. */
  function ToolsFor(logic: Logic): (t: ToolsConfig)
    ensures logic.clientCount > 0 <==> t.FunctionTools?
    ensures t.FunctionTools? ==> t.declarations == logic.registry.declarations
    ensures t == GoogleSearch <==> logic.clientCount == 0 && logic.searchEnable
    ensures t == NoTools <==> logic.clientCount == 0 && !logic.searchEnable
  {
    if logic.clientCount > 0 then FunctionTools(logic.registry.declarations)
    else if logic.searchEnable then GoogleSearch
    else NoTools
  }

  /** The chat configuration: persona as system instruction, no thinking
      budget, and the advertised tools. */
  function ChatConfigFor(logic: Logic): (c: ChatConfig)
    ensures c.systemInstruction == logic.persona && c.thinkingBudget == 0
    ensures c.tools.FunctionTools? <==> logic.clientCount > 0
    ensures c.tools == GoogleSearch <==> logic.clientCount == 0 && logic.searchEnable
  {
    ChatConfig(logic.persona, 0, ToolsFor(logic))
  }

  const ContextHeader: string := "Context from the knowledge base:"
  const RequestPrefix: string := "User request: "

  /** The knowledge-base context part: header, documents and a final line
      break, joined by line breaks. */
  function ContextBlock(docs: seq<string>): string
  {
    Text.Join([ContextHeader] + docs + ["\n"], "\n")
  }

  /** The context part starts with the header on its own line, lists the
      documents one per line, and ends with a blank line. */
  lemma ContextBlockShape(docs: seq<string>)
    requires |docs| > 0
    ensures ContextBlock(docs) == ContextHeader + "\n" + Text.Join(docs, "\n") + "\n" + "\n"
  {
    Text.JoinAppend([ContextHeader], docs, "\n");
    Text.JoinAppend([ContextHeader] + docs, ["\n"], "\n");
    assert Text.Join([ContextHeader], "\n") == ContextHeader;
    assert Text.Join(["\n"], "\n") == "\n";
  }

  /** The parts of the first message: the context part when there is at
      least one retrieved document, then always the user request. */
  function PromptParts(contexts: seq<string>, msg: string): (ps: seq<Part>)
    ensures 1 <= |ps| <= 2
    ensures ps[|ps| - 1] == TextPart(RequestPrefix + msg)
    ensures |ps| == 2 <==> |contexts| > 0
    ensures |contexts| > 0 ==> ps[0] == TextPart(ContextBlock(contexts))
  {
    var request := TextPart(RequestPrefix + msg);
    if |contexts| > 0 then [TextPart(ContextBlock(contexts)), request] else [request]
  }

  /** The contents of retrieved documents, in rank order. */
  function Contents(docs: seq<Rag.Document>): (cs: seq<string>)
    ensures |cs| == |docs|
    ensures forall k :: 0 <= k < |docs| ==> cs[k] == docs[k].content
  {
    if docs == [] then [] else [docs[0].content] + Contents(docs[1..])
  }

  /** The remote collaborators of one turn. `createChat` is the error of
      creating the chat, if any; `replies` answers the successive
      `SendMessage` calls; `transcript` is the chat's history after the turn,
      as the SDK reports it. */
  datatype Env = Env(
    createChat: Option<Error>,
    collection: Rag.Collection,
    replies: seq<Result<Response, Error>>,
    callTool: ToolCaller,
    transcript: (seq<Content>, seq<Effect>) -> seq<Content>)

  /** A turn's reply text, error, resulting store and trace; `ScriptEnded`
      marks a turn whose scripted replies ran out. */
  datatype TurnOutcome =
    | Turn(reply: string, err: Option<Error>, store: History.Store, trace: seq<Effect>)
    | ScriptEnded(trace: seq<Effect>)

  /** The knowledge-base step: no retriever gives no context; otherwise the
      retriever is asked for three documents and its error aborts the turn. */
  function Retrieve(logic: Logic, coll: Rag.Collection, msg: string): (r: Result<seq<string>, Error>)
    ensures logic.rag.None? ==> r == Success([])
    ensures logic.rag.Some? ==> (r.Success? <==> Rag.Query(logic.rag.value, coll, msg, 3).Success?)
    ensures logic.rag.Some? && r.Failure? ==> r.error == Rag.Query(logic.rag.value, coll, msg, 3).error
    ensures logic.rag.Some? && r.Success? ==>
              && |r.value| == |Rag.Query(logic.rag.value, coll, msg, 3).value|
              && forall k :: 0 <= k < |r.value| ==> r.value[k] == Rag.Query(logic.rag.value, coll, msg, 3).value[k].content
  {
    if logic.rag.None? then Success([])
    else
      match Rag.Query(logic.rag.value, coll, msg, 3)
      case Failure(e) => Failure(e)
      case Success(docs) => Success(Contents(docs))
  }

  /** The turn's outcome with `before` put in front of its trace. */
  function Prefixed(before: seq<Effect>, r: TurnOutcome): (p: TurnOutcome)
    ensures p.trace == before + r.trace
    ensures p.Turn? == r.Turn?
    ensures r.Turn? ==> p.reply == r.reply && p.err == r.err && p.store == r.store
  {
    match r
    case Turn(reply, err, store, trace) => Turn(reply, err, store, before + trace)
    case ScriptEnded(trace) => ScriptEnded(before + trace)
  }

  /** The second half of `HandleMessage`, once the first message has been
      sent (`before` is the trace so far): take the answer, resolve its
      function calls and save the chat's history. The outcome's trace holds
      only the effects after `before`: tool calls with this session id,
      resubmissions and, last, the save. */
  function Converse(owner: map<string, nat>, hcfg: History.Config, store: History.Store,
                    sessionId: string, hist: seq<Content>, before: seq<Effect>, env: Env): (r: TurnOutcome)
    ensures forall k :: 0 <= k < |r.trace| - 1 ==> LoopEffect(owner, sessionId, r.trace[k])
    ensures |r.trace| > 0 && !r.trace[|r.trace| - 1].SaveHistory? ==>
              LoopEffect(owner, sessionId, r.trace[|r.trace| - 1])
    ensures r.Turn? && (r.trace == [] || !r.trace[|r.trace| - 1].SaveHistory?) ==>
              r.err.Some? && r.reply == "" && r.store == store
    ensures env.replies != [] && env.replies[0].Failure? ==> r == Turn("", Some(env.replies[0].error), store, [])
    ensures env.replies != [] && env.replies[0].Success? ==>
              var loop := Resolve(owner, env.callTool, sessionId, env.replies[0].value, env.replies[1..]);
              && (loop.Failed? ==> r == Turn("", Some(loop.error), store, loop.trace))
              && (loop.Unresolved? ==> r == ScriptEnded(loop.trace))
              && (loop.Done? ==> r.Turn? && r.reply == loop.final.text && |r.trace| > 0 && r.trace[..|r.trace| - 1] == loop.trace)
    ensures r.Turn? && r.store != store ==> r.err.None?
    ensures r.Turn? && r.err.None? ==>
              && |r.trace| > 0
              && r.trace[|r.trace| - 1].SaveHistory?
              && r.trace[|r.trace| - 1].sessionId == sessionId
              && History.Save(hcfg, store, sessionId, r.trace[|r.trace| - 1].history) == Success(r.store)
  {
    if env.replies == [] then ScriptEnded([])
    else
      match env.replies[0]
      case Failure(e) => Turn("", Some(e), store, [])
      case Success(resp) =>
        LoopCallsCarrySession(owner, env.callTool, sessionId, resp, env.replies[1..]);
        match Resolve(owner, env.callTool, sessionId, resp, env.replies[1..])
        case Unresolved(t) => ScriptEnded(t)
        case Failed(e, t) => Turn("", Some(e), store, t)
        case Done(final, t, _) =>
          var saved := env.transcript(hist, before + t);
          var t' := t + [SaveHistory(sessionId, saved)];
          assert forall k :: 0 <= k < |t'| - 1 ==> t'[k] == t[k];
          assert t'[..|t'| - 1] == t;
          match History.Save(hcfg, store, sessionId, saved)
          case Failure(e) => Turn(final.text, Some(e), store, t')
          case Success(store') => Turn(final.text, None, store', t')
  }

  /** The effects of a turn up to and including the first message: the
      history read, the chat creation with the configured model, the query
      when a retriever is configured, then the first message. */
  function Opening(logic: Logic, sessionId: string, hist: seq<Content>, msg: string, contexts: seq<string>): (t: seq<Effect>)
    ensures |t| == FirstSendIndex(logic) + 1
    ensures t[0] == ReadHistory(sessionId) && t[1] == CreateChat(logic.model, ChatConfigFor(logic), hist)
    ensures logic.rag.Some? ==> t[2] == QueryKnowledge(msg, 3)
    ensures t[|t| - 1] == Send(PromptParts(contexts, msg))
  {
    [ReadHistory(sessionId), CreateChat(logic.model, ChatConfigFor(logic), hist)]
    + (if logic.rag.Some? then [QueryKnowledge(msg, 3)] else [])
    + [Send(PromptParts(contexts, msg))]
  }

  /** `HandleMessage`. */
  function HandleMessage(logic: Logic, hcfg: History.Config, store: History.Store,
                         sessionId: string, msg: string, env: Env): (r: TurnOutcome)
    ensures sessionId == "" ==> r == Turn("", Some(EmptySessionId), store, [])
    ensures sessionId != "" && env.createChat.Some? ==>
              r == Turn("", Some(env.createChat.value), store, r.trace) && |r.trace| == 2
    ensures sessionId != "" ==>
              && |r.trace| >= 2
              && r.trace[0] == ReadHistory(sessionId)
              && r.trace[1] == CreateChat(logic.model, ChatConfigFor(logic), History.Read(store, sessionId))
    ensures r.Turn? && r.store != store ==> r.err.None?
    ensures r.Turn? && r.err.None? ==>
              && sessionId != ""
              && r.trace[|r.trace| - 1].SaveHistory?
              && r.trace[|r.trace| - 1].sessionId == sessionId
              && History.Save(hcfg, store, sessionId, r.trace[|r.trace| - 1].history) == Success(r.store)
  {
    if sessionId == "" then Turn("", Some(EmptySessionId), store, [])
    else
      var hist := History.Read(store, sessionId);
      var t0 := [ReadHistory(sessionId), CreateChat(logic.model, ChatConfigFor(logic), hist)];
      if env.createChat.Some? then Turn("", Some(env.createChat.value), store, t0)
      else
        var t1 := t0 + (if logic.rag.Some? then [QueryKnowledge(msg, 3)] else []);
        match Retrieve(logic, env.collection, msg)
        case Failure(e) => Turn("", Some(e), store, t1)
        case Success(contexts) =>
          var t2 := Opening(logic, sessionId, hist, msg, contexts);
          Prefixed(t2, Converse(logic.registry.owner, hcfg, store, sessionId, hist, t2, env))
  }

  /** The trace position of the first message: after the history read, the
      chat creation and, when a retriever is configured, the query. */
  function FirstSendIndex(logic: Logic): nat
  {
    if logic.rag.Some? then 3 else 2
  }

  /** Once the chat exists and retrieval succeeds, the first message sent is
      the composed prompt, and a failing retrieval sends nothing. */
  lemma FirstMessageIsPrompt(logic: Logic, hcfg: History.Config, store: History.Store,
                             sessionId: string, msg: string, env: Env)
    requires sessionId != "" && env.createChat.None?
    ensures var r := HandleMessage(logic, hcfg, store, sessionId, msg, env);
      && (logic.rag.Some? ==> r.trace[2] == QueryKnowledge(msg, 3))
      && (Retrieve(logic, env.collection, msg).Success? ==>
            && |r.trace| > FirstSendIndex(logic)
            && r.trace[FirstSendIndex(logic)] == Send(PromptParts(Retrieve(logic, env.collection, msg).value, msg)))
      && (Retrieve(logic, env.collection, msg).Failure? ==>
            r == Turn("", Some(Retrieve(logic, env.collection, msg).error), store, r.trace)
            && |r.trace| == FirstSendIndex(logic))
  {
  }

  /** A failure to create the chat ends the turn with that error, after
      reading the history and before anything is sent or saved. */
  lemma CreateChatErrorEndsTurn(logic: Logic, hcfg: History.Config, store: History.Store,
                                sessionId: string, msg: string, env: Env)
    requires sessionId != "" && env.createChat.Some?
    ensures HandleMessage(logic, hcfg, store, sessionId, msg, env)
            == Turn("", Some(env.createChat.value), store,
                    [ReadHistory(sessionId), CreateChat(logic.model, ChatConfigFor(logic), History.Read(store, sessionId))])
  {
  }

  /** A failure of the first `SendMessage` ends the turn with that error:
      the trace stops at the first message, so nothing is saved. */
  lemma FirstSendErrorEndsTurn(logic: Logic, hcfg: History.Config, store: History.Store,
                               sessionId: string, msg: string, env: Env)
    requires sessionId != "" && env.createChat.None? && Retrieve(logic, env.collection, msg).Success?
    requires env.replies != [] && env.replies[0].Failure?
    ensures var r := HandleMessage(logic, hcfg, store, sessionId, msg, env);
      && r == Turn("", Some(env.replies[0].error), store,
                   Opening(logic, sessionId, History.Read(store, sessionId), msg, Retrieve(logic, env.collection, msg).value))
      && forall k :: 0 <= k < |r.trace| ==> !r.trace[k].SaveHistory?
  {
    var hist := History.Read(store, sessionId);
    var contexts := Retrieve(logic, env.collection, msg).value;
    var t2 := Opening(logic, sessionId, hist, msg, contexts);
    TraceSplits(logic, hcfg, store, sessionId, msg, env);
    OpeningIsQuiet(logic, sessionId, hist, msg, contexts);
    assert t2 + [] == t2;
  }

  /** A failed resubmission inside the tool loop ends the turn with that
      error, without saving: the trace is the opening and the loop's effects. */
  lemma LoopErrorEndsTurn(logic: Logic, hcfg: History.Config, store: History.Store,
                          sessionId: string, msg: string, env: Env)
    requires sessionId != "" && env.createChat.None? && Retrieve(logic, env.collection, msg).Success?
    requires env.replies != [] && env.replies[0].Success?
    requires Resolve(logic.registry.owner, env.callTool, sessionId, env.replies[0].value, env.replies[1..]).Failed?
    ensures var loop := Resolve(logic.registry.owner, env.callTool, sessionId, env.replies[0].value, env.replies[1..]);
      var r := HandleMessage(logic, hcfg, store, sessionId, msg, env);
      && r == Turn("", Some(loop.error), store,
                   Opening(logic, sessionId, History.Read(store, sessionId), msg, Retrieve(logic, env.collection, msg).value)
                   + loop.trace)
      && forall k :: 0 <= k < |r.trace| ==> !r.trace[k].SaveHistory?
  {
    var hist := History.Read(store, sessionId);
    var contexts := Retrieve(logic, env.collection, msg).value;
    var t2 := Opening(logic, sessionId, hist, msg, contexts);
    TraceSplits(logic, hcfg, store, sessionId, msg, env);
    OpeningIsQuiet(logic, sessionId, hist, msg, contexts);
    var loop := Resolve(logic.registry.owner, env.callTool, sessionId, env.replies[0].value, env.replies[1..]);
    LoopCallsCarrySession(logic.registry.owner, env.callTool, sessionId, env.replies[0].value, env.replies[1..]);
    var t := t2 + loop.trace;
    forall k | 0 <= k < |t|
      ensures !t[k].SaveHistory?
    {
      if k >= |t2| {
        assert t[k] == loop.trace[k - |t2|];
        assert LoopEffect(logic.registry.owner, sessionId, loop.trace[k - |t2|]);
      }
    }
  }

  /** The reply is the text of the first response that asks for no calls,
      and it is returned even when saving the history fails. */
  lemma ReplyIsFirstCallFreeAnswer(logic: Logic, hcfg: History.Config, store: History.Store,
                                   sessionId: string, msg: string, env: Env)
    requires sessionId != "" && env.createChat.None? && Retrieve(logic, env.collection, msg).Success?
    requires env.replies != [] && env.replies[0].Success?
    requires Resolve(logic.registry.owner, env.callTool, sessionId, env.replies[0].value, env.replies[1..]).Done?
    ensures var r := HandleMessage(logic, hcfg, store, sessionId, msg, env);
      var final := Resolve(logic.registry.owner, env.callTool, sessionId, env.replies[0].value, env.replies[1..]).final;
      && final.calls == []
      && r.Turn? && r.reply == final.text
  {
  }

  /** Without a retriever, or with an empty corpus, the prompt is the user
      request alone. */
  lemma PlainPromptWithoutKnowledge(logic: Logic, coll: Rag.Collection, msg: string)
    requires logic.rag.None? || logic.rag.value.embeddedDocs == 0
    ensures Retrieve(logic, coll, msg) == Success([])
    ensures PromptParts(Retrieve(logic, coll, msg).value, msg) == [TextPart(RequestPrefix + msg)]
  {
  }

  /** The opening effects neither call tools nor save. */
  lemma OpeningIsQuiet(logic: Logic, sessionId: string, hist: seq<Content>, msg: string, contexts: seq<string>)
    ensures var t := Opening(logic, sessionId, hist, msg, contexts);
      forall k :: 0 <= k < |t| ==> !t[k].SaveHistory? && !t[k].CallTool?
  {
  }

  /** Once the first message is sent, the turn's trace is the opening
      followed by the trace of the second half. */
  lemma TraceSplits(logic: Logic, hcfg: History.Config, store: History.Store,
                    sessionId: string, msg: string, env: Env)
    requires sessionId != "" && env.createChat.None? && Retrieve(logic, env.collection, msg).Success?
    ensures var hist := History.Read(store, sessionId);
      var t2 := Opening(logic, sessionId, hist, msg, Retrieve(logic, env.collection, msg).value);
      var c := Converse(logic.registry.owner, hcfg, store, sessionId, hist, t2, env);
      && HandleMessage(logic, hcfg, store, sessionId, msg, env) == Prefixed(t2, c)
      && |t2| > 0
  {
  }

  /** Saving is the last step of a turn and happens at most once. A turn that
      does not save returns an error and an empty reply and leaves the store
      as it was. */
  lemma SaveIsLastAndOnly(logic: Logic, hcfg: History.Config, store: History.Store,
                          sessionId: string, msg: string, env: Env)
    ensures var r := HandleMessage(logic, hcfg, store, sessionId, msg, env);
      forall k :: 0 <= k < |r.trace| - 1 ==> !r.trace[k].SaveHistory?
    ensures var r := HandleMessage(logic, hcfg, store, sessionId, msg, env);
      r.Turn? && (r.trace == [] || !r.trace[|r.trace| - 1].SaveHistory?) ==>
        r.err.Some? && r.reply == "" && r.store == store
  {
    if sessionId != "" && env.createChat.None? && Retrieve(logic, env.collection, msg).Success? {
      var hist := History.Read(store, sessionId);
      var contexts := Retrieve(logic, env.collection, msg).value;
      var t2 := Opening(logic, sessionId, hist, msg, contexts);
      var owner := logic.registry.owner;
      var c := Converse(owner, hcfg, store, sessionId, hist, t2, env);
      TraceSplits(logic, hcfg, store, sessionId, msg, env);
      OpeningIsQuiet(logic, sessionId, hist, msg, contexts);
      var r := Prefixed(t2, c);
      forall k | 0 <= k < |r.trace| - 1
        ensures !r.trace[k].SaveHistory?
      {
        if k < |t2| {
          assert r.trace[k] == t2[k];
        } else {
          assert r.trace[k] == c.trace[k - |t2|];
          assert LoopEffect(owner, sessionId, c.trace[k - |t2|]);
        }
      }
      if |c.trace| > 0 {
        assert r.trace[|r.trace| - 1] == c.trace[|c.trace| - 1];
      }
    }
  }

  /** Every tool call of a turn carries the turn's session id and goes to the
      client registered for the called name. */
  lemma ToolCallsCarrySession(logic: Logic, hcfg: History.Config, store: History.Store,
                              sessionId: string, msg: string, env: Env)
    ensures var r := HandleMessage(logic, hcfg, store, sessionId, msg, env);
      forall k :: 0 <= k < |r.trace| && r.trace[k].CallTool? ==>
        && r.trace[k].sessionId == sessionId
        && r.trace[k].call.name in logic.registry.owner
        && r.trace[k].client == logic.registry.owner[r.trace[k].call.name]
  {
    if sessionId != "" && env.createChat.None? && Retrieve(logic, env.collection, msg).Success? {
      var hist := History.Read(store, sessionId);
      var t2 := Opening(logic, sessionId, hist, msg, Retrieve(logic, env.collection, msg).value);
      var owner := logic.registry.owner;
      var c := Converse(owner, hcfg, store, sessionId, hist, t2, env);
      TraceSplits(logic, hcfg, store, sessionId, msg, env);
      OpeningIsQuiet(logic, sessionId, hist, msg, Retrieve(logic, env.collection, msg).value);
      var r := Prefixed(t2, c);
      forall k | 0 <= k < |t2|
        ensures !r.trace[k].CallTool?
      {
        assert r.trace[k] == t2[k];
      }
      forall k | |t2| <= k < |r.trace| && r.trace[k].CallTool?
        ensures r.trace[k].sessionId == sessionId && r.trace[k].call.name in owner
          && r.trace[k].client == owner[r.trace[k].call.name]
      {
        assert r.trace[k] == c.trace[k - |t2|];
        assert LoopEffect(owner, sessionId, c.trace[k - |t2|]);
      }
    }
  }

  /** A turn writes only its own session's record. */
  lemma TurnTouchesOnlyItsSession(logic: Logic, hcfg: History.Config, store: History.Store,
                                  sessionId: string, msg: string, env: Env, other: string)
    requires other != sessionId
    requires HandleMessage(logic, hcfg, store, sessionId, msg, env).Turn?
    ensures History.Read(HandleMessage(logic, hcfg, store, sessionId, msg, env).store, other)
            == History.Read(store, other)
  {
  }

  /** The plain scenario: an empty history, no tools, no retriever and a
      reply without calls; the turn sends just the user request and saves the
      chat's transcript. */
  lemma PlainTurn(persona: Content, model: string, hcfg: History.Config, env: Env, answer: string)
    requires env.createChat.None? && env.replies == [Success(Response(answer, []))]
    requires !History.Compacts(hcfg, env.transcript([], [
               ReadHistory("u1"), CreateChat(model, ChatConfig(persona, 0, NoTools), []),
               Send([TextPart("User request: hello")])]))
    ensures var logic := Logic(persona, model, 0, Registry.Registry([], map[]), None, false);
      var saved := env.transcript([], [
               ReadHistory("u1"), CreateChat(model, ChatConfig(persona, 0, NoTools), []),
               Send([TextPart("User request: hello")])]);
      HandleMessage(logic, hcfg, map[], "u1", "hello", env)
        == Turn(answer, None, map["u1" := saved], [
             ReadHistory("u1"), CreateChat(model, ChatConfig(persona, 0, NoTools), []),
             Send([TextPart("User request: hello")]), SaveHistory("u1", saved)])
  {
    var replies := env.replies;
    assert replies[1..] == [];
    var logic := Logic(persona, model, 0, Registry.Registry([], map[]), None, false);
    assert ToolsFor(logic) == NoTools;
    assert Retrieve(logic, env.collection, "hello") == Success([]);
    assert RequestPrefix + "hello" == "User request: hello";
    assert PromptParts([], "hello") == [TextPart("User request: hello")];
    var t2 := [ReadHistory("u1"), CreateChat(model, ChatConfig(persona, 0, NoTools), []),
               Send([TextPart("User request: hello")])];
    var resp := Response(answer, []);
    assert Resolve(logic.registry.owner, env.callTool, "u1", resp, []) == Done(resp, [], 0);
    assert t2 + [] == t2;
    var saved := env.transcript([], t2);
    assert History.Save(hcfg, map[], "u1", saved) == Success(map["u1" := saved]);
    assert History.Read(map[], "u1") == [];
    assert ChatConfigFor(logic) == ChatConfig(persona, 0, NoTools);
    var t0 := [ReadHistory("u1"), CreateChat(model, ChatConfig(persona, 0, NoTools), [])];
    var none: seq<Effect> := [];
    assert t0 + none == t0;
    assert t0 + [Send([TextPart("User request: hello")])] == t2;
  }
}

=== FILE: rag.dfy ===
/** The knowledge retriever (internal/rag/rag.go): loads every file of the
    corpus directory as one document with a sequential id, counts them, and
    answers similarity queries with a clamped result limit. The directory walk
    is given as the sequence of callbacks `fs.WalkDir` makes, in walk order; the
    embedding store and its similarity ranking are oracles. */
module Rag {
  import opened Wrappers
  import opened Errors
  import Decimal

  /** What opening and reading one file produced. */
  datatype FileLoad = OpenFailed(error: Error) | ReadFailed(error: Error) | Loaded(content: string)

  /** One callback of the walk: an error reported for `path`, a directory, or
      a file with its base name. */
  datatype Visit =
    | WalkError(path: string, error: Error)
    | Dir(path: string)
    | File(path: string, name: string, load: FileLoad)

  datatype Document = Document(id: string, content: string)

  /** The collection's `AddDocument`: embeds and indexes the content,
      `Some(error)` when embedding fails. */
  type Embedder = string -> Option<Error>

  /** The collection's `Query`: query text and result count in, ranked
      documents or an error out. */
  type Collection = (string, int) -> Result<seq<Document>, Error>

  /** The loaded retriever: the indexed documents and the `embeddedDocs` count. */
  datatype Retriever = Retriever(docs: seq<Document>, embeddedDocs: nat)

  /** Directories and files named `.gitkeep` are passed over. */
  predicate Skipped(v: Visit)
  {
    v.Dir? || (v.File? && v.name == ".gitkeep")
  }

  /** The loader's state after a walk: indexed documents, the next id to
      hand out, and the error that stopped the walk, if any. */
  datatype WalkState = WalkState(docs: seq<Document>, nextId: nat, err: Option<Error>)

  /** The walk callback applied to each visit in turn, starting with id `id`.
      The id advances once a file has been read, before its embedding result
      is known; the first error stops the walk. */
  function Walk(visits: seq<Visit>, embed: Embedder, id: nat): (r: WalkState)
    ensures |r.docs| <= r.nextId - id <= |r.docs| + 1
    ensures r.err.None? ==> r.nextId - id == |r.docs|
    ensures forall k :: 0 <= k < |r.docs| ==> r.docs[k].id == Decimal.Format(id + k)
    decreases |visits|
  {
    if visits == [] then WalkState([], id, None)
    else
      match visits[0]
      case WalkError(path, e) => WalkState([], id, Some(WalkFailed(path, e)))
      case Dir(_) => Walk(visits[1..], embed, id)
      case File(_, name, load) =>
        if name == ".gitkeep" then Walk(visits[1..], embed, id)
        else
          match load
          case OpenFailed(e) => WalkState([], id, Some(e))
          case ReadFailed(e) => WalkState([], id, Some(e))
          case Loaded(content) =>
            match embed(content)
            case Some(e) => WalkState([], id + 1, Some(e))
            case None =>
              var rest := Walk(visits[1..], embed, id + 1);
              WalkState([Document(Decimal.Format(id), content)] + rest.docs, rest.nextId, rest.err)
  }

  /** The walk goes on past this visit: it is passed over, or it is a file
      that was read and embedded. */
  predicate Passes(v: Visit, embed: Embedder)
  {
    Skipped(v) || (v.File? && v.load.Loaded? && embed(v.load.content).None?)
  }

  /** The walk stops at visit `i` because the file read there could not be
      embedded. */
  predicate EmbedFailsAt(visits: seq<Visit>, embed: Embedder, i: int)
  {
    && 0 <= i < |visits|
    && (forall j :: 0 <= j < i ==> Passes(visits[j], embed))
    && !Skipped(visits[i]) && visits[i].File? && visits[i].load.Loaded?
    && embed(visits[i].load.content).Some?
  }

  /** Past a visit the walk goes on from, the stopping embed failure moves
      one position down. */
  lemma EmbedFailsAfterPass(visits: seq<Visit>, embed: Embedder)
    requires |visits| > 0 && Passes(visits[0], embed)
    ensures (exists i :: EmbedFailsAt(visits, embed, i)) <==> (exists i :: EmbedFailsAt(visits[1..], embed, i))
  {
    if exists i :: EmbedFailsAt(visits, embed, i) {
      var i :| EmbedFailsAt(visits, embed, i);
      assert i > 0;
      forall j | 0 <= j < i - 1
        ensures Passes(visits[1..][j], embed)
      {
        assert visits[1..][j] == visits[j + 1];
      }
      assert visits[1..][i - 1] == visits[i];
      assert EmbedFailsAt(visits[1..], embed, i - 1);
    }
    if exists i :: EmbedFailsAt(visits[1..], embed, i) {
      var i :| EmbedFailsAt(visits[1..], embed, i);
      forall j | 0 <= j < i + 1
        ensures Passes(visits[j], embed)
      {
        if j > 0 {
          assert visits[j] == visits[1..][j - 1];
        }
      }
      assert visits[i + 1] == visits[1..][i];
      assert EmbedFailsAt(visits, embed, i + 1);
    }
  }

  /** The id counter runs one ahead of the documents exactly when the walk
      stopped at a file that was read but failed to embed. */
  lemma {:induction false} WalkCountsFailedEmbedding(visits: seq<Visit>, embed: Embedder, id: nat)
    ensures var w := Walk(visits, embed, id);
      w.nextId - id == |w.docs| + 1 <==> exists i :: EmbedFailsAt(visits, embed, i)
    decreases |visits|
  {
    if visits != [] {
      var v := visits[0];
      if Passes(v, embed) {
        EmbedFailsAfterPass(visits, embed);
        if Skipped(v) {
          WalkCountsFailedEmbedding(visits[1..], embed, id);
        } else {
          WalkCountsFailedEmbedding(visits[1..], embed, id + 1);
        }
      } else if v.File? && v.name != ".gitkeep" && v.load.Loaded? {
        assert EmbedFailsAt(visits, embed, 0);
      } else {
        assert forall i :: !EmbedFailsAt(visits, embed, i) by {
          forall i | 0 <= i < |visits|
            ensures !EmbedFailsAt(visits, embed, i)
          {
            if i > 0 {
              assert !Passes(visits[0], embed);
            }
          }
        }
      }
    }
  }

  /** `loadContent`: ids start at 1 and `embeddedDocs` is one less than the
      next unused id. */
  function LoadContent(visits: seq<Visit>, embed: Embedder): (r: (Retriever, Option<Error>))
    ensures r.1.None? ==> r.0.embeddedDocs == |r.0.docs|
    ensures forall k :: 0 <= k < |r.0.docs| ==> r.0.docs[k].id == Decimal.Format(k + 1)
  {
    var w := Walk(visits, embed, 1);
    (Retriever(w.docs, w.nextId - 1), w.err)
  }

  /** `New`: collection creation, then loading; any error fails construction. */
  function New(createError: Option<Error>, visits: seq<Visit>, embed: Embedder): (r: Result<Retriever, Error>)
    ensures createError.Some? ==> r == Failure(createError.value)
    ensures r.Success? ==> r.value.embeddedDocs == |r.value.docs|
  {
    if createError.Some? then Failure(createError.value)
    else
      var (retriever, err) := LoadContent(visits, embed);
      if err.Some? then Failure(err.value) else Success(retriever)
  }

  /** A walk where every visit is a directory, a skipped file, or a file that
      opens, reads and embeds without error. */
  predicate CleanWalk(visits: seq<Visit>, embed: Embedder)
  {
    forall k :: 0 <= k < |visits| ==>
      && !visits[k].WalkError?
      && (visits[k].File? && visits[k].name != ".gitkeep" ==>
            visits[k].load.Loaded? && embed(visits[k].load.content).None?)
  }

  /** The contents of the files that are not skipped, in walk order. */
  function Corpus(visits: seq<Visit>): seq<string>
  {
    if visits == [] then []
    else if !Skipped(visits[0]) && visits[0].File? && visits[0].load.Loaded?
    then [visits[0].load.content] + Corpus(visits[1..])
    else Corpus(visits[1..])
  }

  /** A clean walk indexes every non-skipped file, in walk order, under the
      consecutive ids `id`, `id + 1`, ... */
  lemma {:induction false} CleanWalkIndexesCorpus(visits: seq<Visit>, embed: Embedder, id: nat)
    requires CleanWalk(visits, embed)
    ensures Walk(visits, embed, id).err.None?
    ensures |Walk(visits, embed, id).docs| == |Corpus(visits)|
    ensures forall k :: 0 <= k < |Corpus(visits)| ==>
              Walk(visits, embed, id).docs[k] == Document(Decimal.Format(id + k), Corpus(visits)[k])
    decreases |visits|
  {
    if visits != [] {
      assert CleanWalk(visits[1..], embed) by {
        forall k | 0 <= k < |visits[1..]|
          ensures !visits[1..][k].WalkError?
        {
          assert visits[1..][k] == visits[k + 1];
        }
      }
      var v := visits[0];
      assert !v.WalkError?;
      if v.File? && v.name != ".gitkeep" {
        CleanWalkIndexesCorpus(visits[1..], embed, id + 1);
      } else {
        CleanWalkIndexesCorpus(visits[1..], embed, id);
      }
    }
  }

  /** After a clean load, `embeddedDocs` is the number of non-skipped files and
      the document with id "k" holds the k-th of them. */
  lemma CleanLoadCountsFiles(visits: seq<Visit>, embed: Embedder)
    requires CleanWalk(visits, embed)
    ensures New(None, visits, embed).Success?
    ensures New(None, visits, embed).value.embeddedDocs == |Corpus(visits)|
    ensures forall k :: 0 <= k < |Corpus(visits)| ==>
              New(None, visits, embed).value.docs[k] == Document(Decimal.Format(k + 1), Corpus(visits)[k])
  {
    CleanWalkIndexesCorpus(visits, embed, 1);
  }

  /** A visit that stops the walk: a walk error, or a file other than
      `.gitkeep` that cannot be opened, read or embedded. */
  predicate Bad(v: Visit, embed: Embedder)
  {
    v.WalkError? || (v.File? && v.name != ".gitkeep" && (!v.load.Loaded? || embed(v.load.content).Some?))
  }

  /** The error a bad visit stops the walk with: the wrapped walk error, the
      open or read error, or the embedding error. */
  function VisitError(v: Visit, embed: Embedder): Error
    requires Bad(v, embed)
  {
    match v
    case WalkError(path, e) => WalkFailed(path, e)
    case File(_, _, load) =>
      match load
      case OpenFailed(e) => e
      case ReadFailed(e) => e
      case Loaded(content) => embed(content).value
  }

  /** The walk stops with the error of its first bad visit. */
  lemma {:induction false} WalkStopsAtFirstBad(visits: seq<Visit>, embed: Embedder, id: nat, i: nat)
    requires i < |visits| && Bad(visits[i], embed)
    requires forall j :: 0 <= j < i ==> !Bad(visits[j], embed)
    ensures Walk(visits, embed, id).err == Some(VisitError(visits[i], embed))
    decreases i
  {
    if i > 0 {
      assert !Bad(visits[0], embed);
      assert visits[1..][i - 1] == visits[i];
      assert forall j :: 0 <= j < i - 1 ==> visits[1..][j] == visits[j + 1];
      if Skipped(visits[0]) {
        WalkStopsAtFirstBad(visits[1..], embed, id, i - 1);
      } else {
        WalkStopsAtFirstBad(visits[1..], embed, id + 1, i - 1);
      }
    }
  }

  /** Construction fails with the error of the first visit that cannot be
      walked, opened, read or embedded. */
  lemma NewFailsAtFirstBad(visits: seq<Visit>, embed: Embedder, i: nat)
    requires i < |visits| && Bad(visits[i], embed)
    requires forall j :: 0 <= j < i ==> !Bad(visits[j], embed)
    ensures New(None, visits, embed) == Failure(VisitError(visits[i], embed))
  {
    WalkStopsAtFirstBad(visits, embed, 1, i);
  }

  /** The walk ends without error exactly when it is clean. */
  lemma {:induction false} WalkErrorIffUnclean(visits: seq<Visit>, embed: Embedder, id: nat)
    ensures Walk(visits, embed, id).err.None? <==> CleanWalk(visits, embed)
    decreases |visits|
  {
    if visits != [] {
      var v := visits[0];
      if Bad(v, embed) {
        WalkStopsAtFirstBad(visits, embed, id, 0);
      } else {
        assert CleanWalk(visits, embed) <==> CleanWalk(visits[1..], embed) by {
          assert forall k :: 0 <= k < |visits[1..]| ==> visits[1..][k] == visits[k + 1];
          if CleanWalk(visits[1..], embed) {
            forall k | 0 <= k < |visits|
              ensures !Bad(visits[k], embed)
            {
              if k > 0 {
                assert visits[k] == visits[1..][k - 1];
              }
            }
          }
        }
        if Skipped(v) {
          WalkErrorIffUnclean(visits[1..], embed, id);
        } else {
          WalkErrorIffUnclean(visits[1..], embed, id + 1);
        }
      }
    }
  }

  /** Construction from an existing collection succeeds exactly when the walk
      is clean. */
  lemma NewSucceedsIffClean(visits: seq<Visit>, embed: Embedder)
    ensures New(None, visits, embed).Success? <==> CleanWalk(visits, embed)
  {
    WalkErrorIffUnclean(visits, embed, 1);
  }

  /** Inserting a directory or a `.gitkeep` file anywhere in the walk changes
      nothing. */
  lemma {:induction false} SkippedVisitIsInvisible(visits: seq<Visit>, k: nat, v: Visit, embed: Embedder, id: nat)
    requires k <= |visits| && Skipped(v)
    ensures Walk(visits[..k] + [v] + visits[k..], embed, id) == Walk(visits, embed, id)
    decreases k
  {
    var withV := visits[..k] + [v] + visits[k..];
    if k == 0 {
      assert withV == [v] + visits;
      assert withV[1..] == visits;
    } else {
      assert withV[0] == visits[0];
      assert withV[1..] == visits[1..][..k - 1] + [v] + visits[1..][k - 1..];
      SkippedVisitIsInvisible(visits[1..], k - 1, v, embed, id);
      SkippedVisitIsInvisible(visits[1..], k - 1, v, embed, id + 1);
    }
  }

  /** The smaller of two numbers. */
  function Min(a: int, b: int): (m: int)
    ensures m <= a && m <= b && (m == a || m == b)
  {
    if a <= b then a else b
  }

  /** `Query`: an empty corpus answers with no documents and leaves the
      collection alone; otherwise the collection is asked for at most
      `embeddedDocs` results and its answer, or its error, is passed through. */
  function Query(r: Retriever, coll: Collection, query: string, limit: int): (res: Result<seq<Document>, Error>)
    ensures r.embeddedDocs == 0 ==> res == Success([])
    ensures r.embeddedDocs > 0 ==> res == coll(query, Min(limit, r.embeddedDocs))
  {
    if r.embeddedDocs == 0 then Success([])
    else coll(query, Min(limit, r.embeddedDocs))
  }

  /** A collection that never returns more results than asked for. */
  ghost predicate HonoursLimit(coll: Collection)
  {
    forall q, n :: coll(q, n).Success? ==> |coll(q, n).value| <= n
  }

  /** However large the requested limit, a query returns at most as many
      documents as the corpus holds. */
  lemma QueryBoundedByCorpus(r: Retriever, coll: Collection, query: string, limit: int)
    requires HonoursLimit(coll)
    ensures Query(r, coll, query, limit).Success? ==> |Query(r, coll, query, limit).value| <= r.embeddedDocs
  {
  }

  /** With an empty corpus the collection's behaviour is irrelevant. */
  lemma EmptyCorpusIgnoresCollection(r: Retriever, c1: Collection, c2: Collection, query: string, limit: int)
    requires r.embeddedDocs == 0
    ensures Query(r, c1, query, limit) == Query(r, c2, query, limit) == Success([])
  {
  }
}

=== FILE: registry.dfy ===
/** The tool registry that `New` in internal/ai/gemini/logic.go builds from
    the configured MCP clients: one function declaration per tool whose input
    schema converts, and a map from tool name to the index of the client that
    serves it, where a later client overwrites an earlier one. */
module Registry {
  import opened Wrappers
  import opened Errors
  import opened Genai

  /** A listed tool; `schema` is `None` when its input schema does not
      convert to a Gemini schema. */
  datatype Tool = Tool(name: string, description: string, schema: Option<Schema>)

  /** One MCP client, seen through its answers: `init` is the handshake
      (`Success(true)` when the server advertises the tools capability) and
      `listing` the answer to listing its tools. */
  datatype McpClient = McpClient(init: Result<bool, Error>, listing: Result<seq<Tool>, Error>)

  /** The declarations advertised to the model and the name-to-client map. */
  datatype Registry = Registry(declarations: seq<Declaration>, owner: map<string, nat>)

  /** The declarations of the tools whose schema converts, in listing order. */
  function Declarations(tools: seq<Tool>): (ds: seq<Declaration>)
    ensures |ds| <= |tools|
  {
    if tools == [] then []
    else
      (if tools[0].schema.Some?
       then [Declaration(tools[0].name, tools[0].description, tools[0].schema.value)]
       else [])
      + Declarations(tools[1..])
  }

  /** The declarations of a concatenation are those of its parts, in order. */
  lemma {:induction false} DeclarationsAppend(a: seq<Tool>, b: seq<Tool>)
    ensures Declarations(a + b) == Declarations(a) + Declarations(b)
    decreases |a|
  {
    if a != [] {
      assert (a + b)[0] == a[0];
      assert (a + b)[1..] == a[1..] + b;
      DeclarationsAppend(a[1..], b);
    } else {
      assert a + b == b;
    }
  }

  /** A tool whose schema does not convert contributes nothing between two
      parts of a listing. */
  lemma SkipBetween(pre: seq<Tool>, post: seq<Tool>, t: Tool)
    requires t.schema.None?
    ensures Declarations(pre + ([t] + post)) == Declarations(pre + post)
  {
    assert Declarations([t] + post) == Declarations(post) by {
      assert Declarations([t]) == [] by {
        assert [t][1..] == [];
      }
      DeclarationsAppend([t], post);
    }
    DeclarationsAppend(pre, [t] + post);
    DeclarationsAppend(pre, post);
  }

  /** Inserting a tool whose schema does not convert anywhere in the listing
      leaves the declarations unchanged. */
  lemma UnconvertedToolIsSkipped(tools: seq<Tool>, k: nat, t: Tool)
    requires k <= |tools| && t.schema.None?
    ensures Declarations(tools[..k] + [t] + tools[k..]) == Declarations(tools)
  {
    var pre, post := tools[..k], tools[k..];
    assert tools[..k] + [t] + tools[k..] == pre + ([t] + post);
    assert pre + post == tools;
    SkipBetween(pre, post, t);
  }

  /** A declaration is advertised exactly when some listed tool with a
      convertible schema has that name, description and schema. */
  lemma {:induction false} DeclarationsAreConvertedTools(tools: seq<Tool>)
    ensures forall d :: d in Declarations(tools) <==>
              exists k :: 0 <= k < |tools| && tools[k].schema.Some? &&
                d == Declaration(tools[k].name, tools[k].description, tools[k].schema.value)
    decreases |tools|
  {
    if tools != [] {
      DeclarationsAreConvertedTools(tools[1..]);
      forall d
        ensures d in Declarations(tools) <==>
                exists k :: 0 <= k < |tools| && tools[k].schema.Some? &&
                  d == Declaration(tools[k].name, tools[k].description, tools[k].schema.value)
      {
        if exists k :: 0 <= k < |tools| && tools[k].schema.Some? &&
             d == Declaration(tools[k].name, tools[k].description, tools[k].schema.value)
        {
          var k :| 0 <= k < |tools| && tools[k].schema.Some? &&
                   d == Declaration(tools[k].name, tools[k].description, tools[k].schema.value);
          if k > 0 {
            assert tools[1..][k - 1] == tools[k];
          }
        }
        if d in Declarations(tools[1..]) {
          var k :| 0 <= k < |tools[1..]| && tools[1..][k].schema.Some? &&
                   d == Declaration(tools[1..][k].name, tools[1..][k].description, tools[1..][k].schema.value);
          assert tools[k + 1] == tools[1..][k];
        }
      }
    }
  }

  /** Some tool in the list has this name and a convertible schema. */
  predicate Offers(tools: seq<Tool>, name: string)
  {
    exists k :: 0 <= k < |tools| && tools[k].name == name && tools[k].schema.Some?
  }

  /** The client is asked for its tools and answers. */
  predicate Lists(c: McpClient)
  {
    c.init == Success(true) && c.listing.Success?
  }

  /** The client registers a tool called `name`. */
  predicate ClientOffers(c: McpClient, name: string)
  {
    Lists(c) && Offers(c.listing.value, name)
  }

  /** A list offers a name when its first tool does or the rest offers it. */
  lemma OffersCons(tools: seq<Tool>)
    requires tools != []
    ensures forall n :: Offers(tools, n) <==>
              (tools[0].name == n && tools[0].schema.Some?) || Offers(tools[1..], n)
  {
    forall n
      ensures Offers(tools, n) <==> (tools[0].name == n && tools[0].schema.Some?) || Offers(tools[1..], n)
    {
      if Offers(tools[1..], n) {
        var k :| 0 <= k < |tools[1..]| && tools[1..][k].name == n && tools[1..][k].schema.Some?;
        assert tools[k + 1] == tools[1..][k];
      }
      if Offers(tools, n) && !(tools[0].name == n && tools[0].schema.Some?) {
        var k :| 0 <= k < |tools| && tools[k].name == n && tools[k].schema.Some?;
        assert tools[1..][k - 1] == tools[k];
      }
    }
  }

  /** Registers one client's tools in listing order under index `idx`. */
  function AddTools(reg: Registry, tools: seq<Tool>, idx: nat): (r: Registry)
    ensures r.declarations == reg.declarations + Declarations(tools)
    ensures forall n :: n in r.owner <==> n in reg.owner || Offers(tools, n)
    ensures forall n :: n in r.owner ==> r.owner[n] == if Offers(tools, n) then idx else reg.owner[n]
    decreases |tools|
  {
    if tools == [] then reg
    else
      var t := tools[0];
      var reg' := if t.schema.Some?
        then Registry(reg.declarations + [Declaration(t.name, t.description, t.schema.value)], reg.owner[t.name := idx])
        else reg;
      var r := AddTools(reg', tools[1..], idx);
      OffersCons(tools);
      r
  }

  /** The registration loop of `New`, client by client: a failed handshake or
      a failed tool listing aborts; a server without the tools capability is
      passed over. */
  function Build(clients: seq<McpClient>): (r: Result<Registry, Error>)
    ensures r.Success? ==> forall n :: n in r.value.owner ==> r.value.owner[n] < |clients|
    decreases |clients|
  {
    if clients == [] then Success(Registry([], map[]))
    else
      match Build(clients[..|clients| - 1])
      case Failure(e) => Failure(e)
      case Success(reg) =>
        var c := clients[|clients| - 1];
        match c.init
        case Failure(e) => Failure(McpInitFailed(e))
        case Success(hasTools) =>
          if !hasTools then Success(reg)
          else
            match c.listing
            case Failure(e) => Failure(e)
            case Success(tools) => Success(AddTools(reg, tools, |clients| - 1))
  }

  /** A client that makes construction fail. */
  predicate Broken(c: McpClient)
  {
    c.init.Failure? || (c.init == Success(true) && c.listing.Failure?)
  }

  /** The error a broken client makes construction fail with. */
  function BrokenError(c: McpClient): Error
    requires Broken(c)
  {
    if c.init.Failure? then McpInitFailed(c.init.error) else c.listing.error
  }

  /** Clients are registered in order, so construction fails with the error
      of the first broken client. */
  lemma {:induction false} BuildFailsAtFirstBroken(clients: seq<McpClient>, i: nat)
    requires i < |clients| && Broken(clients[i])
    requires forall j :: 0 <= j < i ==> !Broken(clients[j])
    ensures Build(clients) == Failure(BrokenError(clients[i]))
    decreases |clients|
  {
    var prefix := clients[..|clients| - 1];
    if i == |clients| - 1 {
      BuildFailsIffBroken(prefix);
      assert forall j :: 0 <= j < |prefix| ==> prefix[j] == clients[j];
    } else {
      assert prefix[i] == clients[i];
      assert forall j :: 0 <= j < i ==> prefix[j] == clients[j];
      BuildFailsAtFirstBroken(prefix, i);
    }
  }

  /** Construction succeeds exactly when no client is broken. */
  lemma {:induction false} BuildFailsIffBroken(clients: seq<McpClient>)
    ensures Build(clients).Failure? <==> exists i :: 0 <= i < |clients| && Broken(clients[i])
    decreases |clients|
  {
    if clients != [] {
      var prefix := clients[..|clients| - 1];
      BuildFailsIffBroken(prefix);
      if exists i :: 0 <= i < |prefix| && Broken(prefix[i]) {
        var i :| 0 <= i < |prefix| && Broken(prefix[i]);
        assert clients[i] == prefix[i];
      }
      if exists i :: 0 <= i < |clients| && Broken(clients[i]) {
        var i :| 0 <= i < |clients| && Broken(clients[i]);
        if i < |prefix| {
          assert prefix[i] == clients[i];
        }
      }
    }
  }

  /** One step of `Build`: the last client's offers are added on top of the
      registry of the clients before it. */
  lemma BuildStep(clients: seq<McpClient>)
    requires clients != [] && Build(clients).Success?
    ensures Build(clients[..|clients| - 1]).Success?
    ensures forall n :: n in Build(clients).value.owner <==>
              n in Build(clients[..|clients| - 1]).value.owner || ClientOffers(clients[|clients| - 1], n)
    ensures forall n :: n in Build(clients).value.owner ==>
              Build(clients).value.owner[n] ==
                if ClientOffers(clients[|clients| - 1], n) then |clients| - 1
                else Build(clients[..|clients| - 1]).value.owner[n]
  {
  }

  /** A name is registered exactly when some client offers it. */
  lemma {:induction false} BuildOwnerDomain(clients: seq<McpClient>)
    requires Build(clients).Success?
    ensures forall n :: n in Build(clients).value.owner <==>
              exists i :: 0 <= i < |clients| && ClientOffers(clients[i], n)
    decreases |clients|
  {
    if clients != [] {
      var prefix := clients[..|clients| - 1];
      var last := |clients| - 1;
      BuildStep(clients);
      BuildOwnerDomain(prefix);
      var reg := Build(clients).value;
      forall n
        ensures n in reg.owner <==> exists i :: 0 <= i < |clients| && ClientOffers(clients[i], n)
      {
        if exists i :: 0 <= i < |prefix| && ClientOffers(prefix[i], n) {
          var i :| 0 <= i < |prefix| && ClientOffers(prefix[i], n);
          assert clients[i] == prefix[i];
        }
        if exists i :: 0 <= i < |clients| && ClientOffers(clients[i], n) {
          var i :| 0 <= i < |clients| && ClientOffers(clients[i], n);
          if i < last {
            assert prefix[i] == clients[i];
          }
        }
      }
    }
  }

  /** The last-offerer property survives one step of `Build`, stated on the
      owner maps alone. */
  lemma OwnerStep(clients: seq<McpClient>, prefix: seq<McpClient>, prev: map<string, nat>, owner: map<string, nat>)
    requires clients != [] && prefix == clients[..|clients| - 1]
    requires forall n :: n in prev ==>
               && prev[n] < |prefix|
               && ClientOffers(prefix[prev[n]], n)
               && forall j :: prev[n] < j < |prefix| ==> !ClientOffers(prefix[j], n)
    requires forall n :: n in owner <==> n in prev || ClientOffers(clients[|clients| - 1], n)
    requires forall n :: n in owner ==>
               owner[n] == if ClientOffers(clients[|clients| - 1], n) then |clients| - 1 else prev[n]
    ensures forall n :: n in owner ==>
              && owner[n] < |clients|
              && ClientOffers(clients[owner[n]], n)
              && forall j :: owner[n] < j < |clients| ==> !ClientOffers(clients[j], n)
  {
    var last := |clients| - 1;
    forall n | n in owner
      ensures owner[n] < |clients| && ClientOffers(clients[owner[n]], n)
      ensures forall j :: owner[n] < j < |clients| ==> !ClientOffers(clients[j], n)
    {
      if ClientOffers(clients[last], n) {
        assert owner[n] == last;
      } else {
        var o := prev[n];
        assert owner[n] == o;
        assert clients[o] == prefix[o];
        forall j | o < j < |clients|
          ensures !ClientOffers(clients[j], n)
        {
          if j < last {
            assert clients[j] == prefix[j];
          }
        }
      }
    }
  }

  /** A registered name maps to the last client that offers it. */
  lemma {:induction false} BuildOwnerIsLast(clients: seq<McpClient>)
    requires Build(clients).Success?
    ensures forall n :: n in Build(clients).value.owner ==>
              && Build(clients).value.owner[n] < |clients|
              && ClientOffers(clients[Build(clients).value.owner[n]], n)
              && forall j :: Build(clients).value.owner[n] < j < |clients| ==> !ClientOffers(clients[j], n)
    decreases |clients|
  {
    if clients != [] {
      var prefix := clients[..|clients| - 1];
      BuildStep(clients);
      BuildOwnerIsLast(prefix);
      OwnerStep(clients, prefix, Build(prefix).value.owner, Build(clients).value.owner);
    }
  }

  /** Last writer wins: a name is registered exactly when some client offers
      it, and it maps to the last such client. */
  lemma BuildOwners(clients: seq<McpClient>)
    requires Build(clients).Success?
    ensures forall n :: n in Build(clients).value.owner <==>
              exists i :: 0 <= i < |clients| && ClientOffers(clients[i], n)
    ensures forall n :: n in Build(clients).value.owner ==>
              && Build(clients).value.owner[n] < |clients|
              && ClientOffers(clients[Build(clients).value.owner[n]], n)
              && forall j :: Build(clients).value.owner[n] < j < |clients| ==> !ClientOffers(clients[j], n)
  {
    BuildOwnerDomain(clients);
    BuildOwnerIsLast(clients);
  }

  /** The declarations of every listing client, in client then listing order. */
  function AllDeclarations(clients: seq<McpClient>): seq<Declaration>
  {
    if clients == [] then []
    else
      (if Lists(clients[0]) then Declarations(clients[0].listing.value) else [])
      + AllDeclarations(clients[1..])
  }

  lemma {:induction false} AllDeclarationsSnoc(clients: seq<McpClient>)
    requires |clients| > 0
    ensures AllDeclarations(clients) ==
              AllDeclarations(clients[..|clients| - 1])
              + (if Lists(clients[|clients| - 1]) then Declarations(clients[|clients| - 1].listing.value) else [])
    decreases |clients|
  {
    if |clients| > 1 {
      var tail := clients[1..];
      assert tail[..|tail| - 1] == clients[..|clients| - 1][1..];
      assert tail[|tail| - 1] == clients[|clients| - 1];
      AllDeclarationsSnoc(tail);
    }
  }

  /** The advertised declarations are exactly those of the convertible tools
      of every listing client, in order; nothing else is advertised. */
  lemma {:induction false} BuildDeclarations(clients: seq<McpClient>)
    requires Build(clients).Success?
    ensures Build(clients).value.declarations == AllDeclarations(clients)
    decreases |clients|
  {
    if clients != [] {
      BuildDeclarations(clients[..|clients| - 1]);
      AllDeclarationsSnoc(clients);
    }
  }
}

=== FILE: serverbot.dfy ===
/** The startup decisions of the bot server's entry point
    (cmd/server-bot/main.go): the log level, defaults, the history threshold,
    the MCP client list and the search switch. The environment is a map (an
    unset variable reads as the empty string) and starting a transport is an
    oracle. */
module ServerBot {
  import opened Wrappers
  import opened Errors
  import Text
  import Decimal
  import History
  import Genai

  /** `slog` levels. */
  datatype Level = Debug | Info | Warn | Error

  /** Lower-casing for matching against the ASCII level names: agrees with
      Go's `unicode.ToLower` on every character whose lower-case form is an
      ASCII letter, including U+0130 (to `i`) and the Kelvin sign (to `k`). */
  function FoldChar(c: char): char
  {
    if 'A' <= c <= 'Z' then (c as int + 32) as char
    else if c == '\U{0130}' then 'i'
    else if c == '\U{212A}' then 'k'
    else c
  }

  function Fold(s: string): (f: string)
    ensures |f| == |s| && forall k :: 0 <= k < |s| ==> f[k] == FoldChar(s[k])
  {
    if s == [] then [] else [FoldChar(s[0])] + Fold(s[1..])
  }

  /** `logLevelEnv`: case-insensitive names, with Info for anything else. */
  function LevelFromEnv(s: string): (l: Level)
    ensures l == Debug <==> Fold(s) == "debug"
    ensures l == Warn <==> Fold(s) == "warn" || Fold(s) == "warning"
    ensures l == Error <==> Fold(s) == "error"
    ensures l == Info <==> Fold(s) !in {"debug", "warn", "warning", "error"}
  {
    var f := Fold(s);
    if f == "debug" then Debug
    else if f == "info" then Info
    else if f == "warn" || f == "warning" then Warn
    else if f == "error" then Error
    else Info
  }

  /** Names differing only in letter case select the same level. */
  lemma LevelIgnoresCase(s: string, t: string)
    requires |s| == |t| && forall k :: 0 <= k < |s| ==> FoldChar(s[k]) == FoldChar(t[k])
    ensures LevelFromEnv(s) == LevelFromEnv(t)
  {
    assert Fold(s) == Fold(t);
  }

  type Environment = map<string, string>

  /** `os.Getenv`: the empty string for an unset variable. */
  function Getenv(env: Environment, key: string): string
  {
    if key in env then env[key] else ""
  }

  const DefaultAddr: string := ":8080"
  const DefaultModel: string := "gemini-flash-latest"
  const DefaultHistorySummary: int := 20

  /** Why startup stops. */
  datatype StartupError =
    | MissingApiKey
    | BadHistorySummary
    | TransportFailed(cause: Error)
    | SearchWithMcp

  /** What the entry point hands to the rest of the program. `mcpEndpoints`
      holds the URL each MCP client's transport is built from. */
  datatype Settings = Settings(
    level: Level,
    addr: string,
    apiKey: string,
    model: string,
    historySummary: int,
    mcpEndpoints: seq<string>,
    searchEnable: bool)

  /** Creating and starting a streamable HTTP transport for a URL. */
  type TransportStarter = string -> Option<Error>

  /** `HISTORY_SUMMARY`: 20 when unset, otherwise a base-10 32-bit integer. */
  function HistorySummary(env: Environment): (r: Option<int>)
    ensures Getenv(env, "HISTORY_SUMMARY") == "" ==> r == Some(DefaultHistorySummary)
    ensures Getenv(env, "HISTORY_SUMMARY") != "" ==> r == Decimal.ParseInt32(Getenv(env, "HISTORY_SUMMARY"))
  {
    var v := Getenv(env, "HISTORY_SUMMARY");
    if v == "" then Some(DefaultHistorySummary) else Decimal.ParseInt32(v)
  }

  /** One client per comma-separated element of a non-empty `MCP_SERVERS`,
      each built from the whole variable rather than from its element. */
  function McpEndpoints(env: Environment): (urls: seq<string>)
    ensures Getenv(env, "MCP_SERVERS") == "" ==> urls == []
    ensures Getenv(env, "MCP_SERVERS") != "" ==>
              |urls| == |Text.Split(Getenv(env, "MCP_SERVERS"), ',')|
    ensures forall k :: 0 <= k < |urls| ==> urls[k] == Getenv(env, "MCP_SERVERS")
  {
    var v := Getenv(env, "MCP_SERVERS");
    if v == "" then [] else seq(|Text.Split(v, ',')|, _ => v)
  }

  /** `SEARCH_ENABLE` is on exactly for the values "true" and "1"; an unset
      variable, and any other spelling such as "TRUE" or "yes", is off. */
  predicate SearchRequested(env: Environment): (on: bool)
    ensures Getenv(env, "SEARCH_ENABLE") == "" ==> !on
    ensures on ==> Getenv(env, "SEARCH_ENABLE") == "true" || Getenv(env, "SEARCH_ENABLE") == "1"
    ensures Getenv(env, "SEARCH_ENABLE") == "true" || Getenv(env, "SEARCH_ENABLE") == "1" ==> on
  {
    Getenv(env, "SEARCH_ENABLE") == "true" || Getenv(env, "SEARCH_ENABLE") == "1"
  }

  /** The configuration part of `main`, in the order it checks things. */
  function Startup(env: Environment, transport: TransportStarter): (r: Result<Settings, StartupError>)
    ensures Getenv(env, "GEMINI_API_KEY") == "" ==> r == Failure(MissingApiKey)
    ensures r.Success? ==>
              && r.value.level == LevelFromEnv(Getenv(env, "LOG_LEVEL"))
              && r.value.apiKey == Getenv(env, "GEMINI_API_KEY") && r.value.apiKey != ""
              && r.value.addr == (if Getenv(env, "ADDR") == "" then DefaultAddr else Getenv(env, "ADDR"))
              && r.value.model == (if Getenv(env, "GEMINI_MODEL") == "" then DefaultModel else Getenv(env, "GEMINI_MODEL"))
              && r.value.model != ""
              && Some(r.value.historySummary) == HistorySummary(env)
              && r.value.mcpEndpoints == McpEndpoints(env)
              && (r.value.searchEnable <==> SearchRequested(env))
              && !(r.value.searchEnable && |r.value.mcpEndpoints| > 0)
    ensures r == Failure(SearchWithMcp) <==>
              && Getenv(env, "GEMINI_API_KEY") != ""
              && HistorySummary(env).Some?
              && Getenv(env, "MCP_SERVERS") != ""
              && transport(Getenv(env, "MCP_SERVERS")).None?
              && SearchRequested(env)
  {
    var key := Getenv(env, "GEMINI_API_KEY");
    if key == "" then Failure(MissingApiKey)
    else
      match HistorySummary(env)
      case None => Failure(BadHistorySummary)
      case Some(threshold) =>
        var urls := McpEndpoints(env);
        if |urls| > 0 && transport(urls[0]).Some? then Failure(TransportFailed(transport(urls[0]).value))
        else if SearchRequested(env) && |urls| > 0 then Failure(SearchWithMcp)
        else
          var addr := if Getenv(env, "ADDR") == "" then DefaultAddr else Getenv(env, "ADDR");
          var model := if Getenv(env, "GEMINI_MODEL") == "" then DefaultModel else Getenv(env, "GEMINI_MODEL");
          Success(Settings(LevelFromEnv(Getenv(env, "LOG_LEVEL")), addr, key, model, threshold, urls, SearchRequested(env)))
  }

  /** `MCP_SERVERS` naming two servers gives two clients that both use the
      whole, unsplit variable as their URL. */
  lemma TwoServersShareOneUrl(env: Environment, x: string, y: string)
    requires ',' !in x && ',' !in y
    requires Getenv(env, "MCP_SERVERS") == x + "," + y
    ensures McpEndpoints(env) == [x + "," + y, x + "," + y]
  {
    var pieces := [x, y];
    assert pieces[..1] == [x];
    assert Text.Join(pieces, ",") == x + "," + y;
    Text.JoinThenSplit(pieces, ',');
  }

  /** Any 32-bit threshold written in decimal is taken as is. */
  lemma HistorySummaryRoundTrip(env: Environment, n: int)
    requires Decimal.Int32Min <= n <= Decimal.Int32Max
    requires Getenv(env, "HISTORY_SUMMARY") == Decimal.Format(n)
    ensures HistorySummary(env) == Some(n)
  {
    Decimal.FormatThenParseInt32(n);
  }

  /** The history store configuration the entry point builds: the Gemini
      client summarizes with the chat model. */
  function HistoryConfig(s: Settings, summarizer: History.Summarizer): (c: History.Config)
    ensures c.historySummary == s.historySummary && c.summarizer == Some(summarizer)
    ensures c.summarizerModel == s.model
  {
    History.Config(s.historySummary, Some(summarizer), s.model)
  }

  /** With this configuration, compaction can fail only through the
      summarizer call itself. */
  lemma StartupCompactionFailsOnlyRemotely(env: Environment, transport: TransportStarter,
                                           summarizer: History.Summarizer, store: History.Store,
                                           sessionId: string, history: seq<Genai.Content>)
    requires Startup(env, transport).Success?
    requires History.Compacts(HistoryConfig(Startup(env, transport).value, summarizer), history)
    ensures var cfg := HistoryConfig(Startup(env, transport).value, summarizer);
      History.Save(cfg, store, sessionId, history).Failure? <==>
        summarizer(cfg.summarizerModel, History.SystemPrompt, History.SummaryRequest(history)).Failure?
  {
    History.CompactionFailure(HistoryConfig(Startup(env, transport).value, summarizer), store, sessionId, history);
  }
}

=== FILE: telegram.dfy ===
/** The Telegram adapter (cmd/client-telegram/main.go): the username
    allow-list, the choice of the largest photo, the caption override and the
    session id sent to the AI service. Bot API calls, the file download and
    the AI service are oracles; what the handler does is returned as the list
    of its outgoing actions. */
module Telegram {
  import opened Wrappers
  import opened Errors
  import Text
  import Decimal

  datatype PhotoSize = PhotoSize(fileId: string, width: int, height: int, fileSize: int)

  /** The zero value of `models.PhotoSize`. */
  const ZeroPhoto: PhotoSize := PhotoSize("", 0, 0, 0)

  /** Photo `i` has the largest file size, and every earlier photo is
      strictly smaller. */
  predicate BiggestAt(photos: seq<PhotoSize>, i: int)
  {
    && 0 <= i < |photos|
    && (forall k :: 0 <= k < |photos| ==> photos[k].fileSize <= photos[i].fileSize)
    && (forall k :: 0 <= k < i ==> photos[k].fileSize < photos[i].fileSize)
  }

  /** At most one position is the biggest. */
  lemma BiggestIsUnique(photos: seq<PhotoSize>, i: int, j: int)
    requires BiggestAt(photos, i) && BiggestAt(photos, j)
    ensures i == j
  {
    assert photos[j].fileSize <= photos[i].fileSize;
    assert photos[i].fileSize <= photos[j].fileSize;
  }

  /** `biggestImage`: the zero photo for an empty list; otherwise the first
      photo of maximal file size, found with a strict comparison. `at` is the
      position the photo was taken from (0 for an empty list). */
  method BiggestImage(photos: seq<PhotoSize>) returns (b: PhotoSize, at: nat)
    ensures photos == [] ==> b == ZeroPhoto && at == 0
    ensures photos != [] ==> BiggestAt(photos, at) && b == photos[at]
  {
    if |photos| == 0 {
      return ZeroPhoto, 0;
    }
    b := photos[0];
    at := 0;
    var n := 0;
    while n < |photos|
      invariant 0 <= n <= |photos|
      invariant 0 <= at < |photos| && at <= n && b == photos[at]
      invariant forall k :: 0 <= k < n ==> photos[k].fileSize <= b.fileSize
      invariant forall k :: 0 <= k < at ==> photos[k].fileSize < b.fileSize
    {
      if photos[n].fileSize > b.fileSize {
        b := photos[n];
        at := n;
      }
      n := n + 1;
    }
  }

  /** An empty allow-list admits everyone; otherwise the username must equal
      an entry exactly. */
  predicate Allowed(limits: seq<string>, username: string)
  {
    |limits| == 0 || username in limits
  }

  /** The allow-list check of `Handler`, a linear search with early exit. */
  method IsAllowed(limits: seq<string>, username: string) returns (ok: bool)
    ensures ok <==> Allowed(limits, username)
  {
    if |limits| == 0 {
      return true;
    }
    var found := false;
    var n := 0;
    while n < |limits|
      invariant 0 <= n <= |limits|
      invariant found <==> username in limits[..n]
    {
      if username == limits[n] {
        found := true;
        assert username in limits[..n + 1];
        break;
      }
      assert limits[..n + 1] == limits[..n] + [limits[n]];
      n := n + 1;
    }
    assert !found ==> limits[..n] == limits;
    if found {
      assert limits[..n + 1] <= limits;
    }
    return found;
  }

  /** `USERNAME_LIMITS`: empty means no limit; otherwise one trimmed entry per
      comma-separated element. */
  function ParseLimits(v: string): (r: seq<string>)
    ensures v == "" ==> r == []
    ensures v != "" ==> |r| == |Text.Split(v, ',')| == Text.Count(v, ',') + 1
    ensures v != "" ==> forall k :: 0 <= k < |r| ==> r[k] == Text.TrimSpace(Text.Split(v, ',')[k])
  {
    if v == "" then []
    else
      Text.SplitShape(v, ',');
      var parts := Text.Split(v, ',');
      seq(|parts|, k requires 0 <= k < |parts| => Text.TrimSpace(parts[k]))
  }

  /** An allow-list entry as parsing leaves it: no comma, and no white space
      at either end. */
  predicate CleanEntry(e: string)
  {
    ',' !in e && (|e| > 0 ==> !Text.IsSpace(e[0]) && !Text.IsSpace(e[|e| - 1]))
  }

  lemma TrimmedPieceIsClean(piece: string)
    requires ',' !in piece
    ensures CleanEntry(Text.TrimSpace(piece))
  {
    InfixAvoids(piece, Text.TrimSpace(piece), Text.LeadingSpace(piece), ',');
  }

  /** A character absent from a string is absent from each of its infixes. */
  lemma InfixAvoids(s: string, t: string, i: nat, c: char)
    requires i + |t| <= |s| && t == s[i..i + |t|] && c !in s
    ensures c !in t
  {
    forall j | 0 <= j < |t|
      ensures t[j] != c
    {
      assert t[j] == s[i + j];
    }
  }

  /** Every parsed allow-list entry is clean. */
  lemma LimitsAreClean(v: string)
    ensures forall k :: 0 <= k < |ParseLimits(v)| ==> CleanEntry(ParseLimits(v)[k])
  {
    if v != "" {
      Text.SplitShape(v, ',');
      var parts := Text.Split(v, ',');
      var r := ParseLimits(v);
      forall k | 0 <= k < |r|
        ensures CleanEntry(r[k])
      {
        TrimmedPieceIsClean(parts[k]);
      }
    }
  }

  /** The incoming message, as far as the handler reads it. */
  datatype Message = Message(chatId: int, username: string, text: string, caption: string, photos: seq<PhotoSize>)

  /** The handler's outgoing actions. */
  datatype Action =
    | Refuse(chatId: int, text: string)
    | Fetch(fileId: string)
    | Forward(sessionId: string, message: string, payload: seq<bv8>)
    | Answer(chatId: int, text: string)

  const RefusalText: string := "\U{1F645}You are not allowed to use this bot."

  /** The session id sent upstream for a chat: "tg-" and the chat id in
      decimal, which reads back as the chat id. */
  function SessionId(chatId: int): (sid: string)
    ensures |sid| > 3 && sid[..3] == "tg-"
    ensures Decimal.ParseDecimal(sid[3..]) == Some(chatId)
  {
    Decimal.FormatThenParse(chatId);
    "tg-" + Decimal.Format(chatId)
  }

  /** Different chats never share a session. */
  lemma SessionIdInjective(a: int, b: int)
    requires SessionId(a) == SessionId(b)
    ensures a == b
  {
    assert SessionId(a)[3..] == Decimal.Format(a);
    assert SessionId(b)[3..] == Decimal.Format(b);
    Decimal.FormatInjective(a, b);
  }

  /** The text forwarded: the caption when a photo is attached and the
      caption is not empty, else the message text. */
  function MessageText(m: Message): (t: string)
    ensures t == m.text || t == m.caption
    ensures |m.photos| == 0 || m.caption == "" ==> t == m.text
    ensures |m.photos| > 0 && m.caption != "" ==> t == m.caption
    ensures t == "" ==> m.text == ""
  {
    if |m.photos| > 0 && m.caption != "" then m.caption else m.text
  }

  /** Fetching a file by id and reading its bytes. */
  type Download = string -> Result<seq<bv8>, Error>

  /** The AI service: session id, message and payload in, reply or error out. */
  type Upstream = (string, string, seq<bv8>) -> Result<string, Error>

  /** `Handler`: refuse users outside the allow-list; fetch the largest photo
      if there is one (a failed fetch ends the update silently); forward the
      text under the chat's session id; relay the reply. */
  method Handle(limits: seq<string>, m: Message, download: Download, upstream: Upstream)
    returns (actions: seq<Action>)
    ensures !Allowed(limits, m.username) ==> actions == [Refuse(m.chatId, RefusalText)]
    ensures Allowed(limits, m.username) && |m.photos| > 0 ==>
              |actions| >= 1 && exists i :: BiggestAt(m.photos, i) && actions[0] == Fetch(m.photos[i].fileId)
    ensures Allowed(limits, m.username) && |m.photos| > 0 && download(actions[0].fileId).Failure? ==>
              |actions| == 1
    ensures Allowed(limits, m.username) && (|m.photos| == 0 || download(actions[0].fileId).Success?) ==>
              var at := if |m.photos| > 0 then 1 else 0;
              var payload := if |m.photos| > 0 then download(actions[0].fileId).value else [];
              && |actions| > at
              && actions[at] == Forward(SessionId(m.chatId), MessageText(m), payload)
              && (upstream(SessionId(m.chatId), MessageText(m), payload).Failure? ==> |actions| == at + 1)
              && (upstream(SessionId(m.chatId), MessageText(m), payload).Success? ==>
                    actions == actions[..at + 1] + [Answer(m.chatId, upstream(SessionId(m.chatId), MessageText(m), payload).value)])
  {
    var ok := IsAllowed(limits, m.username);
    if !ok {
      return [Refuse(m.chatId, RefusalText)];
    }
    actions := [];
    var payload: seq<bv8> := [];
    var msg := m.text;
    if |m.photos| > 0 {
      var photo, at := BiggestImage(m.photos);
      actions := [Fetch(photo.fileId)];
      assert BiggestAt(m.photos, at) && actions[0] == Fetch(m.photos[at].fileId);
      match download(photo.fileId)
      case Failure(_) =>
        return;
      case Success(bytes) =>
        payload := bytes;
        if m.caption != "" {
          msg := m.caption;
        }
    }
    assert msg == MessageText(m);
    var session := SessionId(m.chatId);
    actions := actions + [Forward(session, msg, payload)];
    match upstream(session, msg, payload)
    case Failure(_) =>
      return;
    case Success(reply) =>
      actions := actions + [Answer(m.chatId, reply)];
  }
}

=== FILE: text.dfy ===
/** The string helpers of Go's `strings` package that the core relies on:
    `Join`, `Split` with a one-character separator, and `TrimSpace`. */
module Text {

  /** `strings.Join`: the elements in order, with `sep` between neighbours. */
  function Join(xs: seq<string>, sep: string): (s: string)
    ensures |xs| == 0 ==> s == ""
    ensures |xs| == 1 ==> s == xs[0]
    decreases |xs|
  {
    if |xs| == 0 then ""
    else if |xs| == 1 then xs[0]
    else Join(xs[..|xs| - 1], sep) + sep + xs[|xs| - 1]
  }

  /** Joining two non-empty lists puts exactly one separator at the seam. */
  lemma {:induction false} JoinAppend(a: seq<string>, b: seq<string>, sep: string)
    requires |a| > 0 && |b| > 0
    ensures Join(a + b, sep) == Join(a, sep) + sep + Join(b, sep)
    decreases |b|
  {
    var ab := a + b;
    if |b| == 1 {
      assert ab[..|ab| - 1] == a;
    } else {
      var b' := b[..|b| - 1];
      assert ab[..|ab| - 1] == a + b';
      JoinAppend(a, b', sep);
    }
  }

  /** Joining a head and a non-empty rest puts one separator after the head. */
  lemma JoinCons(head: string, rest: seq<string>, sep: string)
    requires |rest| > 0
    ensures Join([head] + rest, sep) == head + sep + Join(rest, sep)
  {
    JoinAppend([head], rest, sep);
    assert Join([head], sep) == head;
  }

  /** Index of the first occurrence of `c` in `s`. */
  function IndexOf(s: string, c: char): (i: nat)
    requires c in s
    ensures i < |s| && s[i] == c && c !in s[..i]
  {
    if s[0] == c then 0 else 1 + IndexOf(s[1..], c)
  }

  /** Number of occurrences of `c` in `s`. */
  function Count(s: string, c: char): nat
  {
    if s == [] then 0 else (if s[0] == c then 1 else 0) + Count(s[1..], c)
  }

  /** `strings.Split(s, [c])`: the maximal `c`-free pieces between separators.
      Like Go, the empty string splits into one empty piece. */
  function Split(s: string, c: char): (parts: seq<string>)
    ensures |parts| >= 1
    ensures c !in s ==> parts == [s]
    ensures c in s ==> |parts| >= 2 && parts[0] == s[..IndexOf(s, c)]
    decreases |s|
  {
    if c !in s then [s]
    else
      var i := IndexOf(s, c);
      [s[..i]] + Split(s[i + 1..], c)
  }

  /** There is one more piece than there are separators, and no piece
      contains the separator. */
  lemma {:induction false} SplitShape(s: string, c: char)
    ensures |Split(s, c)| == Count(s, c) + 1
    ensures forall k :: 0 <= k < |Split(s, c)| ==> c !in Split(s, c)[k]
    decreases |s|
  {
    if c in s {
      var i := IndexOf(s, c);
      SplitShape(s[i + 1..], c);
      CountSplitsAt(s, c, i);
    } else {
      CountAbsent(s, c);
    }
  }

  lemma {:induction false} CountAbsent(s: string, c: char)
    requires c !in s
    ensures Count(s, c) == 0
    decreases |s|
  {
    if s != [] {
      assert c !in s[1..];
      CountAbsent(s[1..], c);
    }
  }

  lemma {:induction false} CountSplitsAt(s: string, c: char, i: nat)
    requires i < |s| && s[i] == c && c !in s[..i]
    ensures Count(s, c) == 1 + Count(s[i + 1..], c)
    decreases i
  {
    if i > 0 {
      assert s[1..][..i - 1] == s[1..i];
      assert c !in s[1..][..i - 1];
      CountSplitsAt(s[1..], c, i - 1);
      assert s[1..][i..] == s[i + 1..];
    }
  }

  /** Joining the pieces with the separator gives back the original string. */
  lemma {:induction false} SplitThenJoin(s: string, c: char)
    ensures Join(Split(s, c), [c]) == s
    decreases |s|
  {
    if c in s {
      var i := IndexOf(s, c);
      var tail := s[i + 1..];
      var rest := Split(tail, c);
      SplitThenJoin(tail, c);
      JoinCons(s[..i], rest, [c]);
      Reassemble(s, i);
    }
  }

  /** A string is the part before position `i`, the character there, and the
      part after it. */
  lemma Reassemble(s: string, i: nat)
    requires i < |s|
    ensures s == s[..i] + [s[i]] + s[i + 1..]
  {
  }

  lemma {:induction false} IndexOfAfterPrefix(x: string, c: char, y: string)
    requires c !in x
    ensures IndexOf(x + [c] + y, c) == |x|
    decreases |x|
  {
    if x != [] {
      assert (x + [c] + y)[1..] == x[1..] + [c] + y;
      assert c !in x[1..];
      IndexOfAfterPrefix(x[1..], c, y);
    }
  }

  /** Splitting a join of separator-free pieces gives back the pieces. */
  lemma {:induction false} JoinThenSplit(xs: seq<string>, c: char)
    requires |xs| >= 1
    requires forall k :: 0 <= k < |xs| ==> c !in xs[k]
    ensures Split(Join(xs, [c]), c) == xs
    decreases |xs|
  {
    if |xs| > 1 {
      var tail := xs[1..];
      assert xs == [xs[0]] + tail;
      JoinAppend([xs[0]], tail, [c]);
      var s := Join(xs, [c]);
      assert s == xs[0] + [c] + Join(tail, [c]);
      IndexOfAfterPrefix(xs[0], c, Join(tail, [c]));
      assert s[..|xs[0]|] == xs[0];
      assert s[|xs[0]| + 1..] == Join(tail, [c]);
      JoinThenSplit(tail, c);
    }
  }

  /** Go's `unicode.IsSpace`, which `strings.TrimSpace` uses. */
  predicate IsSpace(ch: char)
  {
    || ch == '\t' || ch == '\n' || ch == '\U{0B}' || ch == '\U{0C}' || ch == '\r' || ch == ' '
    || ch == '\U{85}' || ch == '\U{A0}' || ch == '\U{1680}'
    || ('\U{2000}' <= ch <= '\U{200A}')
    || ch == '\U{2028}' || ch == '\U{2029}' || ch == '\U{202F}' || ch == '\U{205F}' || ch == '\U{3000}'
  }

  /** Drops the leading white space. */
  function TrimLeft(s: string): (r: string)
    ensures |r| <= |s| && r == s[|s| - |r|..]
    ensures forall k :: 0 <= k < |s| - |r| ==> IsSpace(s[k])
    ensures |r| > 0 ==> !IsSpace(r[0])
    decreases |s|
  {
    if |s| > 0 && IsSpace(s[0]) then TrimLeft(s[1..]) else s
  }

  /** Drops the trailing white space. */
  function TrimRight(s: string): (r: string)
    ensures |r| <= |s| && r == s[..|r|]
    ensures forall k :: |r| <= k < |s| ==> IsSpace(s[k])
    ensures |r| > 0 ==> !IsSpace(r[|r| - 1])
    decreases |s|
  {
    if |s| > 0 && IsSpace(s[|s| - 1]) then TrimRight(s[..|s| - 1]) else s
  }

  /** How many white-space characters `TrimSpace` removes from the front. */
  function LeadingSpace(s: string): nat
  {
    |s| - |TrimLeft(s)|
  }

  /** `strings.TrimSpace`: the infix of `s` left after removing white space
      at both ends. */
  function TrimSpace(s: string): (r: string)
    ensures LeadingSpace(s) + |r| <= |s|
    ensures r == s[LeadingSpace(s)..LeadingSpace(s) + |r|]
    ensures forall k :: 0 <= k < LeadingSpace(s) ==> IsSpace(s[k])
    ensures forall k :: LeadingSpace(s) + |r| <= k < |s| ==> IsSpace(s[k])
    ensures |r| > 0 ==> !IsSpace(r[0]) && !IsSpace(r[|r| - 1])
  {
    var l := TrimLeft(s);
    var r := TrimRight(l);
    PrefixOfSuffix(s, l, r);
    r
  }

  /** A prefix `r` of a suffix `l` of `s` is an infix of `s`, and what `l`
      holds after `r` is what `s` holds after that infix. */
  lemma PrefixOfSuffix(s: string, l: string, r: string)
    requires |l| <= |s| && l == s[|s| - |l|..]
    requires |r| <= |l| && r == l[..|r|]
    requires forall k :: |r| <= k < |l| ==> IsSpace(l[k])
    ensures r == s[|s| - |l|..|s| - |l| + |r|]
    ensures forall k :: |s| - |l| + |r| <= k < |s| ==> IsSpace(s[k])
  {
    var i := |s| - |l|;
    forall k | i + |r| <= k < |s|
      ensures IsSpace(s[k])
    {
      assert s[k] == l[k - i];
    }
  }

  /** Trimming twice is the same as trimming once. */
  lemma TrimSpaceIdempotent(s: string)
    ensures TrimSpace(TrimSpace(s)) == TrimSpace(s)
  {
    var t := TrimSpace(s);
    if |t| > 0 {
      assert TrimLeft(t) == t;
      assert TrimRight(t) == t;
    }
  }
}

=== FILE: toolloop.dfy ===
/** The function-call resolution loop of internal/ai/gemini/logic.go
    (`resolveFunctions`): while the model's response asks for function calls,
    dispatch each known call to its MCP client, collect one function response
    per successful call, and resubmit them together. MCP tool calls are an
    oracle; the chat's answers to resubmissions are a scripted sequence. */
module ToolLoop {
  import opened Wrappers
  import opened Errors
  import opened Genai
  import Text

  /** One content item of a tool result: text, or any other kind (image,
      audio, embedded resource) that the loop ignores. */
  datatype ToolContent = TextContent(text: string) | NonText

  /** `CallTool` on the client with the given index, with the session id in
      the request context. */
  type ToolCaller = (nat, string, FunctionCall) -> Result<seq<ToolContent>, Error>

  /** The remote interactions of a turn, in the order they happen. */
  datatype Effect =
    | ReadHistory(sessionId: string)
    | CreateChat(model: string, config: ChatConfig, history: seq<Content>)
    | QueryKnowledge(query: string, limit: int)
    | Send(parts: seq<Part>)
    | CallTool(client: nat, sessionId: string, call: FunctionCall)
    | SaveHistory(sessionId: string, history: seq<Content>)

  /** The text items of a tool result, in order. */
  function Texts(contents: seq<ToolContent>): seq<string>
  {
    if contents == [] then []
    else (if contents[0].TextContent? then [contents[0].text] else []) + Texts(contents[1..])
  }

  /** The `"output"` of a function response: the text items joined by one space. */
  function Output(contents: seq<ToolContent>): (o: string)
    ensures Texts(contents) == [] ==> o == ""
    ensures |Texts(contents)| == 1 ==> o == Texts(contents)[0]
  {
    Text.Join(Texts(contents), " ")
  }

  /** When no text item contains a space, splitting the output at spaces
      recovers the text items. */
  lemma OutputSplitsBack(contents: seq<ToolContent>)
    requires Texts(contents) != []
    requires forall k :: 0 <= k < |Texts(contents)| ==> ' ' !in Texts(contents)[k]
    ensures Text.Split(Output(contents), ' ') == Texts(contents)
  {
    Text.JoinThenSplit(Texts(contents), ' ');
  }

  lemma {:induction false} TextsAppend(a: seq<ToolContent>, b: seq<ToolContent>)
    ensures Texts(a + b) == Texts(a) + Texts(b)
    decreases |a|
  {
    if a != [] {
      assert (a + b)[1..] == a[1..] + b;
      TextsAppend(a[1..], b);
    } else {
      assert a + b == b;
    }
  }

  /** A non-text item contributes nothing to the output, wherever it sits. */
  lemma NonTextIsDropped(a: seq<ToolContent>, b: seq<ToolContent>)
    ensures Output(a + [NonText] + b) == Output(a + b)
  {
    TextsAppend(a + [NonText], b);
    TextsAppend(a, [NonText]);
    TextsAppend(a, b);
    assert [NonText][1..] == [];
    assert Texts([NonText]) == [];
    assert Texts(a + [NonText] + b) == Texts(a + b);
  }

  /** Two text items are joined with exactly one space. */
  lemma TwoTextsJoinWithSpace(x: string, y: string)
    ensures Output([TextContent(x), TextContent(y)]) == x + " " + y
  {
    TextsAppend([TextContent(x)], [TextContent(y)]);
    assert [TextContent(x), TextContent(y)] == [TextContent(x)] + [TextContent(y)];
    assert [TextContent(y)][1..] == [];
    assert [TextContent(x)][1..] == [];
    assert Texts([TextContent(x), TextContent(y)]) == [x, y];
    assert [x, y][..1] == [x];
    assert Text.Join([x, y], " ") == Text.Join([x], " ") + " " + y;
  }

  /** A call is answered when its name is registered and its tool call succeeds. */
  predicate Answered(owner: map<string, nat>, caller: ToolCaller, sessionId: string, c: FunctionCall)
  {
    c.name in owner && caller(owner[c.name], sessionId, c).Success?
  }

  /** The function response built for an answered call. */
  function ResultFor(owner: map<string, nat>, caller: ToolCaller, sessionId: string, c: FunctionCall): FunctionResponse
    requires Answered(owner, caller, sessionId, c)
  {
    FunctionResponse(c.id, c.name, Output(caller(owner[c.name], sessionId, c).value))
  }

  /** The outcome of handling one response's calls: the parts to resubmit
      and the tool calls made. */
  datatype Dispatch = Dispatch(parts: seq<Part>, trace: seq<Effect>)

  /** One pass of the inner loop over `calls`: unknown names are skipped
      without calling anything, failed tool calls are skipped after the call,
      every other call yields one function response. */
  function DispatchCalls(owner: map<string, nat>, caller: ToolCaller, sessionId: string, calls: seq<FunctionCall>): (d: Dispatch)
    ensures |d.parts| <= |d.trace| <= |calls|
    ensures forall k :: 0 <= k < |d.trace| ==>
              && d.trace[k].CallTool?
              && d.trace[k].sessionId == sessionId
              && d.trace[k].call.name in owner
              && d.trace[k].client == owner[d.trace[k].call.name]
    decreases |calls|
  {
    if calls == [] then Dispatch([], [])
    else
      var prev := DispatchCalls(owner, caller, sessionId, calls[..|calls| - 1]);
      var c := calls[|calls| - 1];
      if c.name !in owner then prev
      else
        var trace := prev.trace + [CallTool(owner[c.name], sessionId, c)];
        match caller(owner[c.name], sessionId, c)
        case Failure(_) => Dispatch(prev.parts, trace)
        case Success(contents) =>
          Dispatch(prev.parts + [ResponsePart(FunctionResponse(c.id, c.name, Output(contents)))], trace)
  }

  /** The tool calls a list of function calls should lead to, read from the
      front: one `CallTool` to the owning client for every call whose name is
      registered, whether or not the tool then succeeds. */
  function ToolCalls(owner: map<string, nat>, sessionId: string, calls: seq<FunctionCall>): seq<Effect>
  {
    if calls == [] then []
    else
      (if calls[0].name in owner then [CallTool(owner[calls[0].name], sessionId, calls[0])] else [])
      + ToolCalls(owner, sessionId, calls[1..])
  }

  lemma {:induction false} ToolCallsSnoc(owner: map<string, nat>, sessionId: string, calls: seq<FunctionCall>, c: FunctionCall)
    ensures ToolCalls(owner, sessionId, calls + [c]) == ToolCalls(owner, sessionId, calls) + ToolCalls(owner, sessionId, [c])
    decreases |calls|
  {
    if calls == [] {
      assert calls + [c] == [c];
    } else {
      assert (calls + [c])[1..] == calls[1..] + [c];
      ToolCallsSnoc(owner, sessionId, calls[1..], c);
    }
  }

  /** The dispatch calls the owning client exactly once for each registered
      call, in call order, including calls whose tool fails. */
  lemma {:induction false} DispatchCallsEveryRegisteredTool(owner: map<string, nat>, caller: ToolCaller, sessionId: string,
                                                            calls: seq<FunctionCall>)
    ensures DispatchCalls(owner, caller, sessionId, calls).trace == ToolCalls(owner, sessionId, calls)
    decreases |calls|
  {
    if calls != [] {
      var n := |calls| - 1;
      DispatchCallsEveryRegisteredTool(owner, caller, sessionId, calls[..n]);
      assert calls == calls[..n] + [calls[n]];
      ToolCallsSnoc(owner, sessionId, calls[..n], calls[n]);
      assert [calls[n]][1..] == [];
    }
  }

  /** The positions of the answered calls, increasing. */
  function AnsweredPositions(owner: map<string, nat>, caller: ToolCaller, sessionId: string, calls: seq<FunctionCall>): (idx: seq<nat>)
    ensures forall k :: 0 <= k < |idx| ==> idx[k] < |calls| && Answered(owner, caller, sessionId, calls[idx[k]])
    ensures forall k, l :: 0 <= k < l < |idx| ==> idx[k] < idx[l]
    decreases |calls|
  {
    if calls == [] then []
    else
      var n := |calls| - 1;
      var prev := AnsweredPositions(owner, caller, sessionId, calls[..n]);
      assert forall k :: 0 <= k < |prev| ==> calls[..n][prev[k]] == calls[prev[k]];
      if Answered(owner, caller, sessionId, calls[n]) then prev + [n] else prev
  }

  /** Part k of the resubmission is the response to the k-th answered call. */
  lemma {:induction false} PartsFollowPositions(owner: map<string, nat>, caller: ToolCaller, sessionId: string, calls: seq<FunctionCall>)
    ensures |AnsweredPositions(owner, caller, sessionId, calls)| == |DispatchCalls(owner, caller, sessionId, calls).parts|
    ensures forall k :: 0 <= k < |AnsweredPositions(owner, caller, sessionId, calls)| ==>
              DispatchCalls(owner, caller, sessionId, calls).parts[k]
              == ResponsePart(ResultFor(owner, caller, sessionId, calls[AnsweredPositions(owner, caller, sessionId, calls)[k]]))
    decreases |calls|
  {
    if calls != [] {
      var n := |calls| - 1;
      var prefix := calls[..n];
      PartsFollowPositions(owner, caller, sessionId, prefix);
      var prev := AnsweredPositions(owner, caller, sessionId, prefix);
      assert forall k :: 0 <= k < |prev| ==> prefix[prev[k]] == calls[prev[k]];
    }
  }

  /** Every answered call has its position listed. */
  lemma {:induction false} PositionsComplete(owner: map<string, nat>, caller: ToolCaller, sessionId: string, calls: seq<FunctionCall>)
    ensures forall i :: 0 <= i < |calls| && Answered(owner, caller, sessionId, calls[i]) ==>
              i in AnsweredPositions(owner, caller, sessionId, calls)
    decreases |calls|
  {
    if calls != [] {
      var n := |calls| - 1;
      var prefix := calls[..n];
      PositionsComplete(owner, caller, sessionId, prefix);
      forall i | 0 <= i < n && Answered(owner, caller, sessionId, calls[i])
        ensures i in AnsweredPositions(owner, caller, sessionId, calls)
      {
        assert prefix[i] == calls[i];
      }
    }
  }

  /** The resubmitted parts correspond, in order, to exactly the answered
      calls: part k is the response, with its id, name and output, to the
      k-th call that is registered and whose tool call succeeds. */
  lemma DispatchAnswersInOrder(owner: map<string, nat>, caller: ToolCaller, sessionId: string, calls: seq<FunctionCall>)
    ensures var idx := AnsweredPositions(owner, caller, sessionId, calls);
      && |idx| == |DispatchCalls(owner, caller, sessionId, calls).parts|
      && (forall k :: 0 <= k < |idx| ==>
            DispatchCalls(owner, caller, sessionId, calls).parts[k]
            == ResponsePart(ResultFor(owner, caller, sessionId, calls[idx[k]])))
      && (forall i :: 0 <= i < |calls| && Answered(owner, caller, sessionId, calls[i]) ==> i in idx)
  {
    PartsFollowPositions(owner, caller, sessionId, calls);
    PositionsComplete(owner, caller, sessionId, calls);
  }

  /** Calls to unregistered names are never dispatched: dropping them changes
      neither the parts nor the tool calls made. */
  lemma {:induction false} UnknownCallIsSkipped(owner: map<string, nat>, caller: ToolCaller, sessionId: string,
                                                 calls: seq<FunctionCall>, c: FunctionCall, rest: seq<FunctionCall>)
    requires c.name !in owner
    ensures DispatchCalls(owner, caller, sessionId, calls + [c] + rest)
            == DispatchCalls(owner, caller, sessionId, calls + rest)
    decreases |rest|
  {
    if rest == [] {
      assert (calls + [c] + rest)[..|calls| + 1 - 1] == calls;
      assert calls + rest == calls;
    } else {
      var r' := rest[..|rest| - 1];
      assert (calls + [c] + rest)[..|calls + [c] + rest| - 1] == calls + [c] + r';
      assert (calls + rest)[..|calls + rest| - 1] == calls + r';
      UnknownCallIsSkipped(owner, caller, sessionId, calls, c, r');
    }
  }

  /** How the loop ended: with a response that asks for no calls (after
      `rounds` resubmissions), with the error of a resubmission, or, only in
      this model, because the scripted answers ran out. */
  datatype LoopOutcome =
    | Done(final: Response, trace: seq<Effect>, rounds: nat)
    | Failed(error: Error, trace: seq<Effect>)
    | Unresolved(trace: seq<Effect>)

  /** `resolveFunctions`: `replies` are the chat's answers to the successive
      resubmissions. Each round resubmits once, even with no parts. */
  function Resolve(owner: map<string, nat>, caller: ToolCaller, sessionId: string,
                   resp: Response, replies: seq<Result<Response, Error>>): (r: LoopOutcome)
    ensures r.Done? ==> r.final.calls == [] && r.rounds <= |replies|
    ensures resp.calls == [] ==> r == Done(resp, [], 0)
    ensures resp.calls != [] ==> !r.Done? || r.rounds > 0
    decreases |replies|
  {
    if resp.calls == [] then Done(resp, [], 0)
    else
      var d := DispatchCalls(owner, caller, sessionId, resp.calls);
      var round := d.trace + [Send(d.parts)];
      if replies == [] then Unresolved(round)
      else
        match replies[0]
        case Failure(e) => Failed(e, round)
        case Success(next) =>
          match Resolve(owner, caller, sessionId, next, replies[1..])
          case Done(f, t, n) => Done(f, round + t, n + 1)
          case Failed(e, t) => Failed(e, round + t)
          case Unresolved(t) => Unresolved(round + t)
  }

  /** The loop stops exactly at the first response without calls: every
      earlier response asked for calls, and the final one is the last reply
      consumed. */
  lemma {:induction false} LoopExitsAtFirstCallFreeResponse(owner: map<string, nat>, caller: ToolCaller, sessionId: string,
                                                            resp: Response, replies: seq<Result<Response, Error>>)
    requires Resolve(owner, caller, sessionId, resp, replies).Done?
    ensures var r := Resolve(owner, caller, sessionId, resp, replies);
      && (r.rounds == 0 ==> r.final == resp)
      && (r.rounds > 0 ==> resp.calls != [] && replies[r.rounds - 1] == Success(r.final))
      && forall k :: 0 <= k < r.rounds - 1 ==> replies[k].Success? && replies[k].value.calls != []
    decreases |replies|
  {
    if resp.calls != [] {
      var next := replies[0].value;
      LoopExitsAtFirstCallFreeResponse(owner, caller, sessionId, next, replies[1..]);
      var r := Resolve(owner, caller, sessionId, resp, replies);
      var inner := Resolve(owner, caller, sessionId, next, replies[1..]);
      assert r.rounds == inner.rounds + 1;
      forall k | 0 <= k < r.rounds - 1
        ensures replies[k].Success? && replies[k].value.calls != []
      {
        if k > 0 {
          assert replies[k] == replies[1..][k - 1];
        } else {
          assert inner.rounds > 0;
        }
      }
    }
  }

  /** Termination: if some scripted reply is an error or asks for no calls,
      the loop ends without running out of script. */
  lemma {:induction false} LoopTerminates(owner: map<string, nat>, caller: ToolCaller, sessionId: string,
                                          resp: Response, replies: seq<Result<Response, Error>>, k: nat)
    requires k < |replies| && (replies[k].Failure? || replies[k].value.calls == [])
    ensures !Resolve(owner, caller, sessionId, resp, replies).Unresolved?
    decreases k
  {
    if resp.calls != [] && replies[0].Success? && k > 0 {
      assert replies[1..][k - 1] == replies[k];
      LoopTerminates(owner, caller, sessionId, replies[0].value, replies[1..], k - 1);
    }
  }

  /** The parts of every resubmission in a trace, in order. */
  function Sent(trace: seq<Effect>): seq<seq<Part>>
  {
    if trace == [] then []
    else (if trace[0].Send? then [trace[0].parts] else []) + Sent(trace[1..])
  }

  lemma {:induction false} SentAppend(a: seq<Effect>, b: seq<Effect>)
    ensures Sent(a + b) == Sent(a) + Sent(b)
    decreases |a|
  {
    if a == [] {
      assert a + b == b;
    } else {
      assert (a + b)[1..] == a[1..] + b;
      SentAppend(a[1..], b);
    }
  }

  /** The trace of one round: its tool calls, then its one resubmission. */
  lemma {:induction false} RoundSendsOnce(owner: map<string, nat>, caller: ToolCaller, sessionId: string, calls: seq<FunctionCall>)
    ensures var d := DispatchCalls(owner, caller, sessionId, calls);
      Sent(d.trace + [Send(d.parts)]) == [d.parts]
  {
    var d := DispatchCalls(owner, caller, sessionId, calls);
    NoSends(d.trace);
    SentAppend(d.trace, [Send(d.parts)]);
    assert [Send(d.parts)][1..] == [];
  }

  lemma {:induction false} NoSends(t: seq<Effect>)
    requires forall k :: 0 <= k < |t| ==> t[k].CallTool?
    ensures Sent(t) == []
    decreases |t|
  {
    if t != [] {
      assert forall k :: 0 <= k < |t[1..]| ==> t[1..][k] == t[k + 1];
      NoSends(t[1..]);
    }
  }

  /** The response handled in round `i`: the first response for round 0,
      otherwise the answer to the previous round's resubmission. */
  function Asked(resp: Response, replies: seq<Result<Response, Error>>, i: nat): Response
    requires i == 0 || (i <= |replies| && replies[i - 1].Success?)
  {
    if i == 0 then resp else replies[i - 1].value
  }

  /** A loop that finishes after `rounds` rounds resubmitted exactly
      `rounds` times, and resubmission `i` carries the dispatch parts of the
      response handled in round `i`. */
  lemma {:induction false} ResolveSendsOncePerRound(owner: map<string, nat>, caller: ToolCaller, sessionId: string,
                                                    resp: Response, replies: seq<Result<Response, Error>>)
    requires Resolve(owner, caller, sessionId, resp, replies).Done?
    ensures var r := Resolve(owner, caller, sessionId, resp, replies);
      && |Sent(r.trace)| == r.rounds
      && (forall k :: 0 <= k < r.rounds - 1 ==> replies[k].Success?)
      && forall i :: 0 <= i < r.rounds ==>
           Sent(r.trace)[i] == DispatchCalls(owner, caller, sessionId, Asked(resp, replies, i).calls).parts
    decreases |replies|
  {
    if resp.calls != [] {
      var d := DispatchCalls(owner, caller, sessionId, resp.calls);
      var round := d.trace + [Send(d.parts)];
      var next := replies[0].value;
      var inner := Resolve(owner, caller, sessionId, next, replies[1..]);
      ResolveSendsOncePerRound(owner, caller, sessionId, next, replies[1..]);
      RoundSendsOnce(owner, caller, sessionId, resp.calls);
      var r := Resolve(owner, caller, sessionId, resp, replies);
      assert r.trace == round + inner.trace && r.rounds == inner.rounds + 1;
      SentAppend(round, inner.trace);
      PrependRound(owner, caller, sessionId, resp, replies, Sent(inner.trace));
    }
  }

  /** Putting the first round's resubmission in front of the rounds that
      follow it: round `i + 1` of the whole loop is round `i` of the rest. */
  lemma PrependRound(owner: map<string, nat>, caller: ToolCaller, sessionId: string,
                     resp: Response, replies: seq<Result<Response, Error>>, rest: seq<seq<Part>>)
    requires replies != [] && replies[0].Success? && |rest| <= |replies| - 1
    requires forall k :: 0 <= k < |rest| - 1 ==> replies[1..][k].Success?
    requires forall i :: 0 <= i < |rest| ==>
               rest[i] == DispatchCalls(owner, caller, sessionId, Asked(replies[0].value, replies[1..], i).calls).parts
    ensures forall k :: 0 <= k < |rest| ==> replies[k].Success?
    ensures var all := [DispatchCalls(owner, caller, sessionId, resp.calls).parts] + rest;
      forall i :: 0 <= i < |all| ==>
        all[i] == DispatchCalls(owner, caller, sessionId, Asked(resp, replies, i).calls).parts
  {
    forall k | 0 <= k < |rest|
      ensures replies[k].Success?
    {
      if k > 0 {
        assert replies[k] == replies[1..][k - 1];
      }
    }
    var all := [DispatchCalls(owner, caller, sessionId, resp.calls).parts] + rest;
    forall i | 0 <= i < |all|
      ensures all[i] == DispatchCalls(owner, caller, sessionId, Asked(resp, replies, i).calls).parts
    {
      if i > 0 {
        assert all[i] == rest[i - 1];
        if i > 1 {
          assert replies[1..][i - 2] == replies[i - 1];
        }
        assert Asked(replies[0].value, replies[1..], i - 1) == Asked(resp, replies, i);
      }
    }
  }

  /** A resubmission that fails in round `k`, after `k` answers that all asked
      for more calls, ends the loop with that error after `k + 1`
      resubmissions. */
  lemma {:induction false} ResubmitErrorInRound(owner: map<string, nat>, caller: ToolCaller, sessionId: string,
                                                resp: Response, replies: seq<Result<Response, Error>>, k: nat)
    requires resp.calls != [] && k < |replies| && replies[k].Failure?
    requires forall j :: 0 <= j < k ==> replies[j].Success? && replies[j].value.calls != []
    ensures Resolve(owner, caller, sessionId, resp, replies).Failed?
    ensures Resolve(owner, caller, sessionId, resp, replies).error == replies[k].error
    ensures |Sent(Resolve(owner, caller, sessionId, resp, replies).trace)| == k + 1
    decreases k
  {
    var d := DispatchCalls(owner, caller, sessionId, resp.calls);
    var round := d.trace + [Send(d.parts)];
    RoundSendsOnce(owner, caller, sessionId, resp.calls);
    if k > 0 {
      var next := replies[0].value;
      forall j | 0 <= j < k - 1
        ensures replies[1..][j].Success? && replies[1..][j].value.calls != []
      {
        assert replies[1..][j] == replies[j + 1];
      }
      assert replies[1..][k - 1] == replies[k];
      ResubmitErrorInRound(owner, caller, sessionId, next, replies[1..], k - 1);
      var inner := Resolve(owner, caller, sessionId, next, replies[1..]);
      SentAppend(round, inner.trace);
    }
  }

  /** Conversely to `LoopExitsAtFirstCallFreeResponse`: when answer `k` is
      the first that asks for no calls, the loop finishes with it after
      `k + 1` rounds. */
  lemma {:induction false} FirstCallFreeAnswerEndsLoop(owner: map<string, nat>, caller: ToolCaller, sessionId: string,
                                                      resp: Response, replies: seq<Result<Response, Error>>, k: nat)
    requires resp.calls != [] && k < |replies| && replies[k].Success? && replies[k].value.calls == []
    requires forall j :: 0 <= j < k ==> replies[j].Success? && replies[j].value.calls != []
    ensures Resolve(owner, caller, sessionId, resp, replies).Done?
    ensures Resolve(owner, caller, sessionId, resp, replies).final == replies[k].value
    ensures Resolve(owner, caller, sessionId, resp, replies).rounds == k + 1
    decreases k
  {
    if k > 0 {
      forall j | 0 <= j < k - 1
        ensures replies[1..][j].Success? && replies[1..][j].value.calls != []
      {
        assert replies[1..][j] == replies[j + 1];
      }
      assert replies[1..][k - 1] == replies[k];
      FirstCallFreeAnswerEndsLoop(owner, caller, sessionId, replies[0].value, replies[1..], k - 1);
    }
  }

  /** A resubmission error ends the loop with that error and no response. */
  lemma ResubmitErrorAborts(owner: map<string, nat>, caller: ToolCaller, sessionId: string,
                            resp: Response, e: Error, rest: seq<Result<Response, Error>>)
    requires resp.calls != []
    ensures Resolve(owner, caller, sessionId, resp, [Failure(e)] + rest).Failed?
    ensures Resolve(owner, caller, sessionId, resp, [Failure(e)] + rest).error == e
  {
    assert ([Failure(e)] + rest)[0] == Failure(e);
  }

  /** A response whose calls are all unknown still costs one resubmission,
      with no parts. */
  lemma {:induction false} EmptyRoundStillResubmits(owner: map<string, nat>, caller: ToolCaller, sessionId: string,
                                                     resp: Response, final: Response)
    requires resp.calls != [] && final.calls == []
    requires forall k :: 0 <= k < |resp.calls| ==> resp.calls[k].name !in owner
    ensures Resolve(owner, caller, sessionId, resp, [Success(final)]) == Done(final, [Send([])], 1)
  {
    NoKnownCallsNoDispatch(owner, caller, sessionId, resp.calls);
    var replies: seq<Result<Response, Error>> := [Success(final)];
    assert replies[1..] == [];
  }

  lemma {:induction false} NoKnownCallsNoDispatch(owner: map<string, nat>, caller: ToolCaller, sessionId: string, calls: seq<FunctionCall>)
    requires forall k :: 0 <= k < |calls| ==> calls[k].name !in owner
    ensures DispatchCalls(owner, caller, sessionId, calls) == Dispatch([], [])
    decreases |calls|
  {
    if calls != [] {
      NoKnownCallsNoDispatch(owner, caller, sessionId, calls[..|calls| - 1]);
    }
  }

  /** An effect of the loop: a resubmission, or a tool call made with the
      turn's session id to the client registered for the call's name. */
  predicate LoopEffect(owner: map<string, nat>, sessionId: string, e: Effect)
  {
    e.Send? || (e.CallTool? && e.sessionId == sessionId && e.call.name in owner && e.client == owner[e.call.name])
  }

  /** Every tool call the loop makes carries the turn's session id and goes to
      the client registered for the call's name. */
  lemma {:induction false} LoopCallsCarrySession(owner: map<string, nat>, caller: ToolCaller, sessionId: string,
                                                 resp: Response, replies: seq<Result<Response, Error>>)
    ensures forall k :: 0 <= k < |Resolve(owner, caller, sessionId, resp, replies).trace| ==>
              LoopEffect(owner, sessionId, Resolve(owner, caller, sessionId, resp, replies).trace[k])
    decreases |replies|
  {
    if resp.calls != [] {
      var d := DispatchCalls(owner, caller, sessionId, resp.calls);
      var round := d.trace + [Send(d.parts)];
      assert forall k :: 0 <= k < |round| ==> LoopEffect(owner, sessionId, round[k]) by {
        forall k | 0 <= k < |round|
          ensures LoopEffect(owner, sessionId, round[k])
        {
          if k < |d.trace| {
            assert round[k] == d.trace[k];
          }
        }
      }
      if replies != [] && replies[0].Success? {
        var inner := Resolve(owner, caller, sessionId, replies[0].value, replies[1..]);
        LoopCallsCarrySession(owner, caller, sessionId, replies[0].value, replies[1..]);
        assert forall j :: 0 <= j < |inner.trace| ==> LoopEffect(owner, sessionId, inner.trace[j]);
        var t := round + inner.trace;
        assert Resolve(owner, caller, sessionId, resp, replies).trace == t;
        forall k | 0 <= k < |t|
          ensures LoopEffect(owner, sessionId, t[k])
        {
          if k >= |round| {
            assert t[k] == inner.trace[k - |round|];
            assert LoopEffect(owner, sessionId, inner.trace[k - |round|]);
          } else {
            assert t[k] == round[k];
          }
        }
      }
    }
  }
}

=== FILE: wrappers.dfy ===
/** Failure-compatible wrappers used throughout the model: Go's `(value, error)`
    pairs become `Result`, and nil-able values become `Option`. */
module Wrappers {

  datatype Option<+T> = None | Some(value: T)

  datatype Result<+T, +E> = Success(value: T) | Failure(error: E) {

    predicate IsFailure() {
      Failure?
    }

    function PropagateFailure<U>(): Result<U, E>
      requires Failure?
    {
      Failure(error)
    }

    function Extract(): T
      requires Success?
    {
      value
    }
  }
}
